=== FILE: README.md ===
# QGroundControl command reliability and joystick selection, in Dafny

This project is a functional model of two small state machines in
QGroundControl.

The first is the reliability layer that `Vehicle` puts between its callers and
the MAVLink link. It has four parts:

- **The command list, `_mavCommandList`** (module `CommandList`). It holds at
  most one outstanding `MAV_CMD` per (target component, command), unless the
  command may be duplicated. Each command is sent up to `maxTries` times, and
  the `_mavCommandResponseCheckTimer` re-sends unacknowledged commands every
  500 ms after `ackTimeoutMSecs`. Every command is reported exactly once:
  - with the ack's result (`MavCmdResultCommandResultOnly`);
  - with `MavCmdResultFailureNoResponseToCommand` when its tries run out;
  - or with `MavCmdResultFailureDuplicateCommand` when a duplicate is refused.

  `MAV_RESULT_IN_PROGRESS` acks go to the progress handler and leave the
  command pending.
- **The `requestMessage` correlator, `_requestMessageInfoMap`** (module
  `RequestMessage`). It keeps one entry per (component, message id) with the
  two flags `commandAckReceived` and `messageReceived`. An entry is retired
  when both have happened, in either order, when the REQUEST_MESSAGE command
  fails, or when the wait for the message runs out.
- **The two layers together** (module `VehicleCommands`). This module holds
  `requestMessage` itself, which registers the request and then submits
  `MAV_CMD_REQUEST_MESSAGE` (512). It also holds the routing of the command
  list's results to `_requestMessageCmdResultHandler` and the 500 ms timer.
- **`sendMessageMultiple`** (module `SendMultiple`). It puts a message on the
  link five times, one send per 500 ms timer firing, round robin over
  `_sendMessageMultipleList`.

A fifth module, `FirmwareVersion`, models `Vehicle::versionCompare(major,
minor, patch)`. A small module `Optional` holds the optional value that
the other modules use.

The second state machine is `JoystickManager`'s choice of the active joystick
(module `JoystickManager`). Its state is:

- the name-to-joystick `QMap`;
- the active joystick;
- the name kept in the settings;
- the check timer with its Android re-poll counter.

Discovery results and the saved settings name are inputs. Persisting a name,
stopping or releasing a joystick, and the Qt signals are events in the
result.

Time is an abstract millisecond count. Each command entry and each acked
request carries its own elapsed-time counter, which one timer firing advances
by 500 ms. Two things are parameters (`CommandList.Policy`), because their
bodies are in `Vehicle.cc`:

- which commands `_sendMavCommandShouldRetry` refuses to retry;
- which commands `_commandCanBeDuplicated` lets be duplicated.

The message-wait timeout of `requestMessage` is a parameter too.

## Model

| member | source | states |
|---|---|---|
| CommandList.MaxTriesFor | src/Vehicle/Vehicle.h:1204-1212 | A new command gets 3 tries (`_mavCommandMaxRetryCount`), or exactly 1 when the should-retry predicate is false, and 1 exactly in that case. |
| CommandList.AckTimeoutFor | src/Vehicle/Vehicle.h:1207-1215 | The ack timeout is 3000 ms, or 120000 ms exactly on a high-latency link. |
| CommandList.NewEntry | src/Vehicle/Vehicle.h:1190-1207 | A new entry carries the request's key, handler and showError, starts with tryCount 0 and no elapsed time, and gets the maxTries and timeout above. |
| CommandList.FindEntryIndex | src/Vehicle/Vehicle.h:1223 | The result is -1 exactly when no entry has the (component, command) key; otherwise it is the first entry with that key. |
| CommandList.IsPending | src/Vehicle/Vehicle.h:643-657 | `isMavCommandPending` is true exactly when some entry in the list has the given target component and command. |
| CommandList.Submit | src/Vehicle/Vehicle.h:1217-1225 | A non-duplicable command whose key is pending is refused with FAILED/`MavCmdResultFailureDuplicateCommand`, and the list is unchanged. Otherwise exactly one new entry is appended after its first send (try 1). |
| CommandList.SubmitKeeps | src/Vehicle/Vehicle.h:662-666 | After a submission the key is pending, and the list invariant holds: tries within 1..maxTries, no overdue entry, and no duplicated non-duplicable key. Every submitted command, with its handler, ends up either in the list or in exactly one result. |
| CommandList.SendFromList | src/Vehicle/Vehicle.h:1222 | `_sendMavCommandFromList` counts one more try for entry `i`. Past maxTries, exactly that entry leaves, the others keep their order, and its handler gets FAILED/`MavCmdResultFailureNoResponseToCommand`. Otherwise only that entry changes, to the next try with a fresh timer, and it is put on the link with that try number. |
| CommandList.HandleAck | src/Vehicle/Vehicle.h:668-677 | An ack for a command that is not pending is ignored. Otherwise it goes to the handler of the first entry with that key. `MAV_RESULT_IN_PROGRESS` gives that handler one progress notice and keeps the entry. Any other result gives it one result notice with that result and `MavCmdResultCommandResultOnly`, and removes exactly that entry; the other entries stay, in order. |
| CommandList.HandleAckKeeps | src/Vehicle/Vehicle.h:668-677 | The pending commands before an ack, each with its handler, equal the ones after it plus those its results are addressed to. The list invariant is preserved. |
| CommandList.TimeoutCheck | src/Vehicle/Vehicle.h:938 | `_sendMavCommandResponseTimeoutCheck` has the same result as checking every entry on its own: an overdue entry is re-sent, or dropped when its tries are used up. Every dropped command is reported once, to its own handler, with FAILED/`MavCmdResultFailureNoResponseToCommand`. The link sends are exactly one per overdue entry with a try left, carrying the next try number, in the order the walk meets them (back to front), and every re-send is a try between 2 and maxTries. |
| CommandList.Tick | src/Vehicle/Vehicle.h:1211-1213 | One 500 ms firing of the response-check timer keeps the list invariant. It conserves commands with their handlers between the list and the results. It reports only NoResponse failures. Its link sends are exactly the re-sends owed by the entries once 500 ms have passed: one per overdue entry with a try left, with the next try number, never beyond maxTries. |
| CommandList.OverdueEntryResent | src/Vehicle/Vehicle.h:633 | An entry that is overdue after the 500 ms period and still has a try left is re-sent by that firing, with its next try number. |
| CommandList.TickBudget | src/Vehicle/Vehicle.h:1204-1215 | Every firing takes at least 500 ms per entry off the list's remaining time budget. This budget bounds how long any entry can stay. |
| CommandList.UnackedCommandsAllResolve | src/Vehicle/Vehicle.h:633-638 | With no acks, enough firings empty the list, and each command that was pending is reported exactly once, to its own handler. |
| RequestMessage.Register | src/Vehicle/Vehicle.h:710-716 | A second request for an outstanding (component, message id) completes at once with FAILED/`RequestMessageFailureDuplicateCommand`, and the map is unchanged. Otherwise exactly that key is added, with both flags clear. |
| RequestMessage.FromCommandFailure | src/Vehicle/Vehicle.h:710-716 | A command-layer failure maps to a request failure that is never NoFailure or MessageNotReceived. Duplicate maps to DuplicateCommand and no-response maps to CommandNotAcked, each in both directions. |
| RequestMessage.CommandResult | src/Vehicle/Vehicle.h:1171-1187 | The command result retires the request exactly when it is not ACCEPTED or the message is already in, and it completes the request exactly when it retires it, to the request's caller. An error is passed on with its result, the mapped failure and no message. An ACCEPTED ack after the message completes with NoFailure and the stored message. Otherwise the ack flag is set and the message wait starts from 0. No other request changes. |
| RequestMessage.MessageReceived | src/Vehicle/Vehicle.h:1177-1188 | The requested message retires its request exactly when the ack is already in. It then completes with ACCEPTED, NoFailure and that message, to the request's caller; otherwise the message is stored. No other request changes. |
| RequestMessage.AdvanceWait | src/Vehicle/Vehicle.h:1179 | Only the message-wait timers of acked requests advance; flags and stored messages are kept. |
| RequestMessage.WaitTimeouts | src/Vehicle/Vehicle.h:1179 | A request leaves exactly when its message wait has run out. Every completion is for a request that left and is exactly (its caller, ACCEPTED, `RequestMessageFailureMessageNotReceived`, no message), once per request. The others are untouched. |
| RequestMessage.AckMessageOrderIrrelevant | src/Vehicle/Vehicle.h:1177-1178 | ACCEPTED ack then message, and message then ack, reach the same map and the same single completion: ACCEPTED, NoFailure, with the message. |
| RequestMessage.AckedRequestExpires | src/Vehicle/Vehicle.h:1178-1179 | An acked request whose message never comes is retired with MessageNotReceived within the number of 500 ms rounds the timeout needs. |
| RequestMessage.RetiresTrans | src/Vehicle/Vehicle.h:1177-1178 | Two steps that each retire requests by completing them once, to their own callers, compose: no request completes twice over both steps, and the surviving requests keep their callers. |
| VehicleCommands.Route | src/Vehicle/Vehicle.h:1187 | Results of REQUEST_MESSAGE commands go to the correlator and are not passed on. All other notices pass through in their original order, repeats included: the passed-on sequence is exactly the input with the correlator's notices filtered out. With no such notice nothing changes. Every request that leaves completes exactly once, to its own caller, and no request is added. |
| VehicleCommands.RouteAt | src/Vehicle/Vehicle.h:1187 | A request is touched only by the results addressed to it. With none it stays as it was. With one, it ends exactly as `_requestMessageCmdResultHandler` leaves it for that result, and the completion that handler gives is among the routed ones. |
| VehicleCommands.SendCommand | src/Vehicle/Vehicle.h:688-691 | A command sent with a handler of its own is exactly a command-list submission. Afterwards the key is pending. |
| VehicleCommands.SendCommandKeepsValid | src/Vehicle/Vehicle.h:1210 | Sending a command keeps the invariant of both the command list and the correlator. |
| VehicleCommands.RequestMessage | src/Vehicle/Vehicle.h:725-728 | `requestMessage` completes at most once at submission time. |
| VehicleCommands.RequestMessageKeepsValid | src/Vehicle/Vehicle.h:1183 | `requestMessage` keeps both invariants. |
| VehicleCommands.ReceiveAck | src/Vehicle/Vehicle.h:969 | An ack for nothing pending changes nothing. An ordinary command's ack reaches its caller exactly as the command-list ack handling reports it, and the requests stay. A REQUEST_MESSAGE's ack goes to the correlator only: IN_PROGRESS changes no request, any other result does exactly what the correlator's result handler does. At most one notice or completion comes out. |
| VehicleCommands.ReceiveAckKeepsValid | src/Vehicle/Vehicle.h:969 | Handling an ack keeps both invariants. |
| VehicleCommands.ReceiveMessage | src/Vehicle/Vehicle.h:1188 | A message leaves the command list alone and does to the requests exactly what the correlator's message handling does, with the same completion. It completes at most one request and keeps the correlator's invariant. |
| VehicleCommands.Tick | src/Vehicle/Vehicle.h:927-938 | One 500 ms firing leaves exactly the command entries that survive their own checks, and keeps both invariants. Ordinary callers receive exactly the command list's notices of that firing (its re-sends and NoResponse results), in order, less those for the correlator. Every request that leaves completes exactly once, to its own caller. |
| VehicleCommands.Ticks | src/Vehicle/Vehicle.h:1211-1213 | `n` firings with no ack and no message in between leave the command list as `n` rounds of the command list's own check do. Ordinary callers receive exactly the notices of those `n` rounds, in order, less those for the correlator. Every request that leaves completes exactly once, to its own caller. |
| VehicleCommands.TickStep | src/Vehicle/Vehicle.h:1177-1178 | Take a request whose ack has not come in and whose command is still in the list; its message may already have arrived. In one firing it either stays exactly as it was, with its command carried and no completion, or it leaves with (FAILED, `RequestMessageFailureCommandNotAcked`). A message that came first never retires it. A finished request stays finished and gets no completion. |
| VehicleCommands.TicksUnacked | src/Vehicle/Vehicle.h:1177-1178 | Over any number of firings, such a request is either unchanged, unacked and uncompleted, or gone and told that its command was not acked. |
| VehicleCommands.MessageFirstNeverAcked | src/Vehicle/Vehicle.h:1177-1178 | The requested message arrives before the ack. It completes nothing and is stored with the request. If the ack never comes, then after enough firings the request is gone and has completed exactly once, with (FAILED, `RequestMessageFailureCommandNotAcked`, no message), and the command list is empty. |
| VehicleCommands.UnackedCommandFails | src/Vehicle/Vehicle.h:633-638 | An ordinary command that is never acked: after enough firings to use up every try, the command list is empty. Every result ordinary callers heard in the meantime is FAILED/`MavCmdResultFailureNoResponseToCommand`, and the command's own handler heard exactly one such result for it. |
| VehicleCommands.UnackedRequestFails | src/Vehicle/Vehicle.h:713 | A REQUEST_MESSAGE that is never acked: after enough firings to use up every try, the request is gone and has completed exactly once, with (FAILED, `RequestMessageFailureCommandNotAcked`, no message), and the command list is empty. |
| VehicleCommands.TickAwaiting | src/Vehicle/Vehicle.h:1178-1179 | In one firing an acked request still waiting for its message either keeps waiting, 500 ms longer and without completing, or, once the wait exceeds the timeout, leaves with (ACCEPTED, `RequestMessageFailureMessageNotReceived`). |
| VehicleCommands.TicksAwaiting | src/Vehicle/Vehicle.h:1178-1179 | Over `n` firings the request keeps waiting, with no completion, while the wait stays within the timeout, and after that it is gone and has been told the message was not received. |
| VehicleCommands.MessageNeverArrives | src/Vehicle/Vehicle.h:714 | A REQUEST_MESSAGE acked with ACCEPTED whose message never comes: the ack completes nothing. While the firings since add up to at most the timeout the request waits, uncompleted. After that it is gone and has completed exactly once, with (ACCEPTED, `RequestMessageFailureMessageNotReceived`, no message). |
| VehicleCommands.RequestWhileOutstanding | src/Vehicle/Vehicle.h:710-716 | A request for an outstanding (component, message id) leaves the whole layer unchanged and completes once with FAILED/`RequestMessageFailureDuplicateCommand`. |
| VehicleCommands.RequestWhileComponentBusy | src/Vehicle/Vehicle.h:662-666 | A request while a REQUEST_MESSAGE to the same component is pending, when that command may not be duplicated, also leaves the layer unchanged and completes with DuplicateCommand. |
| VehicleCommands.RequestRegistered | src/Vehicle/Vehicle.h:1171-1183 | Otherwise exactly one request entry and one REQUEST_MESSAGE command (first try, message id as first parameter) are added, and nothing completes yet. When the retry policy retries REQUEST_MESSAGE, the command gets `_mavCommandMaxRetryCount` (3) tries. |
| VehicleCommands.RequestAckAndMessageInEitherOrder | src/Vehicle/Vehicle.h:1177-1178 | After `requestMessage`, the ACCEPTED ack and the message lead, in either order, to the same completion (ACCEPTED, NoFailure, the message), reported once. The layer returns to the state before the request. |
| VehicleCommands.RequestAckFailure | src/Vehicle/Vehicle.h:712 | A REQUEST_MESSAGE acked with an error retires the request with that result and `RequestMessageFailureCommandError`. The layer returns to its state before the request. |
| SendMultiple.Append | src/Vehicle/Vehicle.h:463-465 | `sendMessageMultiple` appends the message with 5 sends owed (`_sendMessageMultipleRetries`), which adds exactly 5 copies to the owed sends. |
| SendMultiple.SendNext | src/Vehicle/Vehicle.h:927 | A firing at a message sends it exactly when the link is up, and the list loses at most that entry. |
| SendMultiple.SendNextKeepsValid | src/Vehicle/Vehicle.h:1090-1102 | Retry counts stay within 1..5 and the index stays on a message or at 0. |
| SendMultiple.SendNextPaysOne | src/Vehicle/Vehicle.h:1093 | Every firing on a non-empty list takes exactly one send of the indexed message off the owed sends. |
| SendMultiple.AllOwedSendsHappen | src/Vehicle/Vehicle.h:1096-1102 | With the link up, as many firings as sends owed empty the list, and the messages sent are exactly the owed ones, as a multiset. So each queued message goes out exactly five times. |
| FirmwareVersion.VersionCompare | src/Vehicle/Vehicle.h:379-382 | The result is 1, 0 or -1: 0 exactly for equal versions, 1 exactly when the current version is later, -1 exactly when it is earlier. |
| FirmwareVersion.VersionCompareAntisymmetric | src/Vehicle/Vehicle.h:379-382 | Swapping the two versions negates the answer. |
| FirmwareVersion.VersionCompareTransitive | src/Vehicle/Vehicle.h:379-382 | "At least as new" is transitive, and equal only through equal steps. |
| FirmwareVersion.UnsetIsOlderThanAnyRelease | src/Vehicle/Vehicle.h:742 | A vehicle whose version is still `versionNotSetValue` compares as older than any real version. |
| JoystickManager.Lookup | src/Joystick/JoystickManager.cc:174-175 | `map[name]` for a key gives a joystick of the map with that name, and on a `QMap` the only one. |
| JoystickManager.SetActiveJoystick | src/Joystick/JoystickManager.cc:127-155 | A joystick whose name is not a key is refused and nothing changes; setting the active joystick again changes and announces nothing. Otherwise the joystick becomes active; the old one (if any) stops polling; a non-null one's name is persisted; and the two change signals close the events. The map is untouched and "active is null or in the map" is preserved. |
| JoystickManager.SetActiveJoystickIdempotent | src/Joystick/JoystickManager.cc:134-136 | Setting a joystick twice is the same as setting it once: the second call changes nothing and emits nothing. |
| JoystickManager.ActiveJoystickName | src/Joystick/JoystickManager.cc:167-170 | The result is the active joystick's name, and "" when none is active. When every joystick is named, it is "" exactly when none is active. |
| JoystickManager.SetActiveJoystickName | src/Joystick/JoystickManager.cc:172-181 | The answer is true exactly when the name is a key, and then `map[name]` is active. Otherwise nothing changes and nothing is emitted. The invariant is preserved. |
| JoystickManager.Unplugged | src/Joystick/JoystickManager.cc:89-98 | Exactly the old joysticks whose names are missing from the new map are released. |
| JoystickManager.Chosen | src/Joystick/JoystickManager.cc:111-116 | The pick is a joystick of the map: the saved name's when that name is set and a key, the first entry's otherwise. |
| JoystickManager.Reconcile | src/Joystick/JoystickManager.cc:84-101 | An active joystick whose name is gone is cleared and stopped, and any other active joystick stays. The unplugged ones are released and the map becomes exactly the discovered one. |
| JoystickManager.SelectFromSettings | src/Joystick/JoystickManager.cc:103-117 | With an empty map nothing is active. Otherwise the chosen joystick is active and its name is what is persisted. |
| JoystickManager.Rediscover | src/Joystick/JoystickManager.cc:74-120 | After rediscovery the map is exactly the discovered one and the active joystick is null or in it. An empty map leaves none active. Otherwise the saved name's joystick (or the first) is active and its name persisted. A vanished active joystick is stopped, and exactly the unplugged joysticks are released. |
| JoystickManager.FirstIsLeast | src/Joystick/JoystickManager.cc:113 | On a `QMap` the first entry has the least name, so without a saved name the alphabetically first joystick is picked. |
| JoystickManager.StartPolling | src/Joystick/JoystickManager.cc:64-71 | Starting the check timer sets the counter to 5 and runs the timer. |
| JoystickManager.PollStep | src/Joystick/JoystickManager.cc:212-217 | A firing of a running timer counts down, rediscovers, and stops the timer exactly when the count reaches 0; a stopped timer does nothing. |
| JoystickManager.PollsCount | src/Joystick/JoystickManager.cc:213-217 | From a running timer, `n` firings rediscover min(n, counter) times and then the timer is stopped; the counter stays positive while it runs. |
| JoystickManager.AtMostFivePolls | src/Joystick/JoystickManager.cc:70-71 | After each start, `n` firings rediscover exactly min(n, 5) times, never more than 5. |
| JoystickManager.AndroidTick | src/Joystick/JoystickManager.cc:212-218 | A firing of the running Android timer is exactly one rediscovery with what discovery found, events included, with the counter advanced. A stopped timer changes nothing. The invariant is preserved. |
| JoystickManager.RunKeepsActiveInMap | src/Joystick/JoystickManager.cc:84-117 | Any sequence of the manager's operations keeps "the active joystick is null or its name is a key of the map". |

## Left out

- `Vehicle.cc` is not part of this model, and the header declares only part of
  the reliability layer. Where the header leaves a timing detail open, the
  model makes these assumptions of its own:
  - an entry is overdue when its elapsed time is greater than its timeout
    (`CommandList.Expired`). The header does not say whether the comparison
    is strict; the model uses `>`;
  - a re-send restarts its elapsed timer;
  - the response check walks the list from the back to the front
    (`CommandList.ScanDown`), so its re-sends come out in that order. The
    header declares `_sendMavCommandResponseTimeoutCheck` but does not say
    in which order it visits the entries;
  - an IN_PROGRESS ack leaves the entry's timer and try count alone. So a
    command that keeps reporting progress but never sends a final ack is
    still given up, with NoResponse, after maxTries rounds of its timeout;
  - a firing of `_sendMessageMultipleNext` while the link is down still uses
    up one of the message's five sends.
- Duplicate commands: the doc comment at `Vehicle.h:633-634` says a second
  command is "queued". The declared `MavCmdResultFailureDuplicateCommand`
  (`Vehicle.h:665`) says it is refused. The model refuses it and has no
  queue.
- `_sendMavCommandShouldRetry` and `_commandCanBeDuplicated` are parameters
  (a `Policy` of command codes), because their bodies are in `Vehicle.cc`.
- The message-wait timeout of `requestMessage` is a parameter, because its
  value is not in the header. The wait is measured in 500 ms rounds of the
  response-check timer.
- `_requestMessageCmdResultHandler` registers no progress handler, so
  IN_PROGRESS acks for REQUEST_MESSAGE produce no event in the model.
- The MAVLink transport, `sendMessageOnLinkThreadSafe`, link threads and
  the `commandResult`/`showError` user alerts are left out: they are I/O. A
  send is a `Sent` notice and a callback is a `Result`/`Progress` notice or
  a `Completion`.
- Command and request parameters are carried but never interpreted, and the
  `float`/`double` values are `real`s.
- The message-interval cache `_mavlinkMsgIntervals` and the unsupported-id
  sets are left out: their bodies are in `Vehicle.cc`.
- The string overload `versionCompare(const QString&)` is left out: it parses
  a version string in `Vehicle.cc`, which is not part of this model.
- The Q_PROPERTY/FactGroup telemetry and the flight-mode, camera, gimbal and
  status-text parts of `Vehicle` are left out: they are UI bindings.
- SDL event polling, the `init` back ends, `wait`/`deleteLater` teardown and
  `QSettings` storage are left out. Discovery and the saved name are
  inputs, and stopping, releasing and persisting are events.
- The SDL branch of `_updateAvailableJoysticks` is left out: it rediscovers
  on device events, which is `Rediscover` called by the environment.
- `JoystickManager.ActiveJoystickName` states "empty exactly when none is
  active" only for maps whose joystick names are non-empty. An unnamed
  joystick also gives "".
- `JoystickManager.Rediscover` takes the discovered map as a sequence. The
  strictly increasing keys of a `QMap` (`Sorted`) are assumed only where the
  result depends on them (`Lookup`, `FirstIsLeast`), and every joystick is
  keyed by its own name.
- `VehicleCommands.RequestMessage` states in its own contract only that there
  is at most one immediate completion. Its three outcomes are stated by
  `RequestWhileOutstanding`, `RequestWhileComponentBusy` and
  `RequestRegistered`.
- `VehicleCommands.UnackedCommandFails` assumes that no earlier entry for
  the same command reports to the same handler; otherwise the handler hears
  one result per such entry.
- `VehicleCommands.RequestRegistered`: which commands are retried is a
  parameter (`Policy`), because `_sendMavCommandShouldRetry` has its body in
  `Vehicle.cc`. The promise that `requestMessage` "will retry a number of
  times" holds only for a policy that retries REQUEST_MESSAGE. For such a
  policy the command gets 3 tries, and `CommandList.OverdueEntryResent`
  re-sends it while a try is left. A policy that refuses retries gives it
  one try.
- `VehicleCommands.UnackedRequestFails`, `VehicleCommands.MessageFirstNeverAcked`
  and `VehicleCommands.MessageNeverArrives` assume that no REQUEST_MESSAGE entry of an earlier request for the same
  (component, message id) is still in the command list. In the model a
  command result reaches whichever request holds that key. In the source it
  reaches the `RequestMessageInfo_t` the entry was created for.

=== FILE: command_list.dfy ===
/** The vehicle's MAV_CMD reliability list (`Vehicle::_mavCommandList`).

    Every command handed to the vehicle becomes an entry keyed by
    (target component, MAV_CMD). An entry is sent at once, re-sent by the
    periodic response check while no ack arrives, and retired either by an
    ack or by running out of tries. Each retirement produces exactly one
    `Result` notice for the entry's handler.

    Wall-clock time is an abstract millisecond counter per entry
    (`elapsedMSecs`) that `Advance` moves forward; the link is reduced to
    `Sent` notices. */
module CommandList {
  import opened Optional
  import opened Mavlink

  const MaxRetryCount: int := 3
  const ResponseCheckTimeoutMSecs: int := 500
  const AckTimeoutMSecs: int := 3000
  const AckTimeoutMSecsHighLatency: int := 120000

  /** `Vehicle::MavCmdResultFailureCode_t`. */
  datatype FailureCode =
    | CommandResultOnly           // the ack's result code says everything
    | FailureNoResponseToCommand  // all tries went unacked
    | FailureDuplicateCommand     // the same command is already waiting for its ack

  /** Who is told about the outcome of an entry. */
  datatype Handler =
    | Signal                                     // no handler: the mavCommandResult signal
    | Caller(id: nat)                            // caller-supplied result/progress handlers
    | RequestMessageInfo(compId: int, msgId: int) // requestMessage's own result handler

  /** The per-command policy of `_sendMavCommandShouldRetry` and
      `_commandCanBeDuplicated`: which codes are sent only once and which
      may have several entries at the same time. */
  datatype Policy = Policy(noRetry: set<int>, duplicable: set<int>) {
    predicate ShouldRetry(command: int) { command !in noRetry }
    predicate CanBeDuplicated(command: int) { command in duplicable }
  }

  /** The arguments of `_sendMavCommandWorker`. */
  datatype Request = Request(
    compId: int, command: int, useCommandInt: bool, frame: int,
    params: seq<real>, showError: bool, handler: Handler)

  /** `Vehicle::MavCommandListEntry_t`; the parameters are opaque. */
  datatype Entry = Entry(
    targetCompId: int, command: int, useCommandInt: bool, frame: int,
    params: seq<real>, showError: bool, handler: Handler,
    maxTries: int, tryCount: int, elapsedMSecs: int, ackTimeoutMSecs: int)

  /** What the list tells the outside world. */
  datatype Notice =
    | Sent(compId: int, command: int, tryCount: int)
    | Progress(handler: Handler, compId: int, command: int, ackResult: int)
    | Result(handler: Handler, compId: int, command: int, ackResult: int, failure: FailureCode)

  /** What the conservation counts see of a command: its key and, when
      `withHandler` holds, the handler that is to hear about it. Without
      `withHandler` the handler is blanked to `Signal`, so that only the key
      counts. */
  function Tag(compId: int, command: int, handler: Handler, withHandler: bool): (int, int, Handler) {
    (compId, command, if withHandler then handler else Signal)
  }

  function TagOf(e: Entry, withHandler: bool): (int, int, Handler) {
    Tag(e.targetCompId, e.command, e.handler, withHandler)
  }

  /** The tags of the entries, in list order. */
  function TagSeq(list: seq<Entry>, withHandler: bool): (ts: seq<(int, int, Handler)>)
    ensures |ts| == |list|
    ensures forall i | 0 <= i < |list| :: ts[i] == TagOf(list[i], withHandler)
  {
    seq(|list|, i requires 0 <= i < |list| => TagOf(list[i], withHandler))
  }

  /** The tags of all entries, with multiplicity. */
  function Marks(list: seq<Entry>, withHandler: bool): multiset<(int, int, Handler)> {
    multiset(TagSeq(list, withHandler))
  }

  /** The tags of all `Result` notices, with multiplicity. */
  function ResultMarks(notices: seq<Notice>, withHandler: bool): multiset<(int, int, Handler)>
    decreases |notices|
  {
    if |notices| == 0 then multiset{}
    else
      var n := notices[0];
      (if n.Result? then multiset{Tag(n.compId, n.command, n.handler, withHandler)} else multiset{})
      + ResultMarks(notices[1..], withHandler)
  }

  /** The key (target component, command) as the counts see it. */
  function Key(compId: int, command: int): (int, int, Handler) {
    Tag(compId, command, Signal, false)
  }

  /** The keys of all entries, with multiplicity. */
  function Keys(list: seq<Entry>): multiset<(int, int, Handler)> {
    Marks(list, false)
  }

  /** The keys of all `Result` notices, with multiplicity. */
  function ResultKeys(notices: seq<Notice>): multiset<(int, int, Handler)> {
    ResultMarks(notices, false)
  }

  /** The (key, handler) pairs of all entries, with multiplicity. */
  function Tags(list: seq<Entry>): multiset<(int, int, Handler)> {
    Marks(list, true)
  }

  /** The (key, handler) pairs of all `Result` notices, with multiplicity:
      who was told about which command. */
  function ResultTags(notices: seq<Notice>): multiset<(int, int, Handler)> {
    ResultMarks(notices, true)
  }

  function MaxTriesFor(policy: Policy, command: int): (n: int)
    ensures n == 1 || n == MaxRetryCount
    ensures n == 1 <==> !policy.ShouldRetry(command)
  {
    if policy.ShouldRetry(command) then MaxRetryCount else 1
  }

  function AckTimeoutFor(highLatency: bool): (t: int)
    ensures t == AckTimeoutMSecs || t == AckTimeoutMSecsHighLatency
    ensures highLatency <==> t == AckTimeoutMSecsHighLatency
  {
    if highLatency then AckTimeoutMSecsHighLatency else AckTimeoutMSecs
  }

  /** An entry as stored by the list: its retry budget comes from the policy,
      it has been sent at least once and at most `maxTries` times, and its
      timeout is one of the two configured values. */
  predicate WellFormed(e: Entry, policy: Policy) {
    && e.maxTries == MaxTriesFor(policy, e.command)
    && 1 <= e.tryCount <= e.maxTries
    && (e.ackTimeoutMSecs == AckTimeoutMSecs || e.ackTimeoutMSecs == AckTimeoutMSecsHighLatency)
    && 0 <= e.elapsedMSecs
  }

  /** Between two response checks no stored entry is overdue. */
  predicate Settled(e: Entry) {
    e.elapsedMSecs <= e.ackTimeoutMSecs
  }

  /** A key whose command cannot be duplicated occurs at most once. */
  predicate NoDuplicates(list: seq<Entry>, policy: Policy) {
    forall k | k in Keys(list) :: !policy.CanBeDuplicated(k.1) ==> Keys(list)[k] <= 1
  }

  /** Every entry is well formed and not overdue. */
  predicate Stored(list: seq<Entry>, policy: Policy) {
    forall e | e in list :: WellFormed(e, policy) && Settled(e)
  }

  /** The invariant of `_mavCommandList` between events. */
  predicate Valid(list: seq<Entry>, policy: Policy) {
    Stored(list, policy) && NoDuplicates(list, policy)
  }

  predicate Matches(e: Entry, compId: int, command: int) {
    e.targetCompId == compId && e.command == command
  }

  /** `_findMavCommandListEntryIndex`: the first entry for the key, or -1. */
  function FindEntryIndex(list: seq<Entry>, compId: int, command: int): (i: int)
    ensures -1 <= i < |list|
    ensures i == -1 <==> forall k | 0 <= k < |list| :: !Matches(list[k], compId, command)
    ensures 0 <= i ==> Matches(list[i], compId, command)
    ensures 0 <= i ==> forall k | 0 <= k < i :: !Matches(list[k], compId, command)
    decreases |list|
  {
    if |list| == 0 then -1
    else if Matches(list[0], compId, command) then 0
    else
      var j := FindEntryIndex(list[1..], compId, command);
      if j == -1 then -1 else j + 1
  }

  /** `isMavCommandPending`: the command is waiting for its ack. */
  function IsPending(list: seq<Entry>, compId: int, command: int): (b: bool)
    ensures b <==> exists k | 0 <= k < |list| :: Matches(list[k], compId, command)
    ensures b <==> Key(compId, command) in Keys(list)
  {
    KeysContains(list, compId, command);
    FindEntryIndex(list, compId, command) != -1
  }

  /** The entry `_sendMavCommandWorker` builds before its first send. */
  function NewEntry(policy: Policy, highLatency: bool, req: Request): (e: Entry)
    ensures Matches(e, req.compId, req.command)
    ensures e.tryCount == 0 && e.elapsedMSecs == 0
    ensures e.maxTries == (if policy.ShouldRetry(req.command) then 3 else 1)
    ensures e.ackTimeoutMSecs == (if highLatency then 120000 else 3000)
    ensures e.handler == req.handler && e.showError == req.showError
  {
    Entry(req.compId, req.command, req.useCommandInt, req.frame, req.params,
          req.showError, req.handler,
          MaxTriesFor(policy, req.command), 0, 0, AckTimeoutFor(highLatency))
  }

  /** `_sendMavCommandFromList`: count one more try; past `maxTries` the
      entry is removed and reported as unanswered, otherwise it is put on
      the link again and its timer restarts. */
  function SendFromList(list: seq<Entry>, i: int): (r: (seq<Entry>, seq<Notice>))
    requires 0 <= i < |list|
    // out of tries: exactly entry i leaves, and its handler hears NoResponse
    ensures list[i].tryCount + 1 > list[i].maxTries ==>
              && r.0 == list[..i] + list[i + 1..]
              && r.1 == [Result(list[i].handler, list[i].targetCompId, list[i].command,
                                ResultFailed, FailureNoResponseToCommand)]
    // otherwise: entry i is sent again with the next try and a fresh timer
    ensures list[i].tryCount + 1 <= list[i].maxTries ==>
              && r.0 == list[i := list[i].(tryCount := list[i].tryCount + 1, elapsedMSecs := 0)]
              && r.1 == [Sent(list[i].targetCompId, list[i].command, list[i].tryCount + 1)]
  {
    var e := list[i];
    var tries := e.tryCount + 1;
    if tries > e.maxTries then
      (list[..i] + list[i + 1..],
       [Result(e.handler, e.targetCompId, e.command, ResultFailed, FailureNoResponseToCommand)])
    else
      (list[i := e.(tryCount := tries, elapsedMSecs := 0)],
       [Sent(e.targetCompId, e.command, tries)])
  }

  /** `_sendMavCommandWorker`: a command already waiting for its ack is
      refused with `FailureDuplicateCommand` unless it may be duplicated;
      otherwise a new entry is appended and sent. */
  function Submit(list: seq<Entry>, policy: Policy, highLatency: bool, req: Request): (r: (seq<Entry>, seq<Notice>))
    ensures IsPending(list, req.compId, req.command) && !policy.CanBeDuplicated(req.command) ==>
              && r.0 == list
              && r.1 == [Result(req.handler, req.compId, req.command, ResultFailed, FailureDuplicateCommand)]
    ensures !IsPending(list, req.compId, req.command) || policy.CanBeDuplicated(req.command) ==>
              && r.0 == list + [NewEntry(policy, highLatency, req).(tryCount := 1)]
              && r.1 == [Sent(req.compId, req.command, 1)]
  {
    var i := FindEntryIndex(list, req.compId, req.command);
    if i != -1 && !policy.CanBeDuplicated(req.command) then
      (list, [Result(req.handler, req.compId, req.command, ResultFailed, FailureDuplicateCommand)])
    else
      SendFromList(list + [NewEntry(policy, highLatency, req)], |list|)
  }

  /** After a submission the command is pending, the list invariant still
      holds, and the submitted command is either stored once more or
      reported once (as a duplicate) to the handler that submitted it. */
  lemma SubmitKeeps(list: seq<Entry>, policy: Policy, highLatency: bool, req: Request)
    ensures IsPending(Submit(list, policy, highLatency, req).0, req.compId, req.command)
    ensures Valid(list, policy) ==> Valid(Submit(list, policy, highLatency, req).0, policy)
    ensures Keys(Submit(list, policy, highLatency, req).0) + ResultKeys(Submit(list, policy, highLatency, req).1)
            == Keys(list) + multiset{Key(req.compId, req.command)}
    ensures Tags(Submit(list, policy, highLatency, req).0) + ResultTags(Submit(list, policy, highLatency, req).1)
            == Tags(list) + multiset{Tag(req.compId, req.command, req.handler, true)}
  {
    SubmitMarks(list, policy, highLatency, req, false);
    SubmitMarks(list, policy, highLatency, req, true);
    var r := Submit(list, policy, highLatency, req);
    if !IsPending(list, req.compId, req.command) || policy.CanBeDuplicated(req.command) {
      assert r.0[..|list|] == list;
      SubmitKeepsValid(list, policy, req, r.0);
    }
  }

  lemma SubmitMarks(list: seq<Entry>, policy: Policy, highLatency: bool, req: Request, withHandler: bool)
    ensures Marks(Submit(list, policy, highLatency, req).0, withHandler) + ResultMarks(Submit(list, policy, highLatency, req).1, withHandler)
            == Marks(list, withHandler) + multiset{Tag(req.compId, req.command, req.handler, withHandler)}
  {
    var r := Submit(list, policy, highLatency, req);
    ResultMarksOne(r.1[0], withHandler);
    if IsPending(list, req.compId, req.command) && !policy.CanBeDuplicated(req.command) {
      assert r.1 == [Result(req.handler, req.compId, req.command, ResultFailed, FailureDuplicateCommand)];
    } else {
      var e := NewEntry(policy, highLatency, req).(tryCount := 1);
      assert r.1 == [Sent(req.compId, req.command, 1)];
      assert r.0 == list + [e];
      MarksAppend(list, [e], withHandler);
      MarksOne(e, withHandler);
    }
  }

  lemma SubmitKeepsValid(list: seq<Entry>, policy: Policy, req: Request, list': seq<Entry>)
    requires !IsPending(list, req.compId, req.command) || policy.CanBeDuplicated(req.command)
    requires |list'| == |list| + 1 && list'[..|list|] == list
    requires WellFormed(list'[|list|], policy) && Settled(list'[|list|])
    requires Matches(list'[|list|], req.compId, req.command)
    ensures Valid(list, policy) ==> Valid(list', policy)
  {
    assert list' == list + [list'[|list|]];
    if Valid(list, policy) {
      forall e | e in list'
        ensures WellFormed(e, policy) && Settled(e)
      {
        if e !in list {
          assert e == list'[|list|];
        }
      }
      MarksAppend(list, [list'[|list|]], false);
      MarksOne(list'[|list|], false);
    }
  }

  /** The reply to a command: `MAV_RESULT_IN_PROGRESS` goes to the progress
      handler and the entry keeps waiting; any other result retires the first
      matching entry and goes to its result handler. An ack nobody waits for
      (unknown or late) is dropped. */
  function HandleAck(list: seq<Entry>, compId: int, command: int, ackResult: int): (r: (seq<Entry>, seq<Notice>))
    ensures !IsPending(list, compId, command) ==> r == (list, [])
    ensures IsPending(list, compId, command) && ackResult == ResultInProgress ==>
              && r.0 == list
              && |r.1| == 1 && r.1[0].Progress?
    ensures IsPending(list, compId, command) && ackResult != ResultInProgress ==>
              && |r.1| == 1 && r.1[0].Result?
              && r.1[0].compId == compId && r.1[0].command == command
              && r.1[0].failure == CommandResultOnly && r.1[0].ackResult == ackResult
              && |r.0| == |list| - 1
    // the entry that hears about the ack, and the one that leaves, is the
    // first entry stored for the key
    ensures var i := FindEntryIndex(list, compId, command);
            0 <= i ==> r.1 == [if ackResult == ResultInProgress
                               then Progress(list[i].handler, compId, command, ackResult)
                               else Result(list[i].handler, compId, command, ackResult, CommandResultOnly)]
    ensures var i := FindEntryIndex(list, compId, command);
            0 <= i && ackResult != ResultInProgress ==> r.0 == list[..i] + list[i + 1..]
  {
    var i := FindEntryIndex(list, compId, command);
    assert IsPending(list, compId, command) <==> i != -1;
    if i == -1 then (list, [])
    else if ackResult == ResultInProgress then
      (list, [Progress(list[i].handler, compId, command, ackResult)])
    else
      assert |list[..i] + list[i + 1..]| == |list| - 1;
      (list[..i] + list[i + 1..], [Result(list[i].handler, compId, command, ackResult, CommandResultOnly)])
  }

  /** An ack either leaves the list alone or retires exactly the acked
      entry and reports it once to that entry's handler, and it keeps the
      list invariant. */
  lemma HandleAckKeeps(list: seq<Entry>, policy: Policy, compId: int, command: int, ackResult: int)
    ensures Keys(list) == Keys(HandleAck(list, compId, command, ackResult).0)
                          + ResultKeys(HandleAck(list, compId, command, ackResult).1)
    ensures Tags(list) == Tags(HandleAck(list, compId, command, ackResult).0)
                          + ResultTags(HandleAck(list, compId, command, ackResult).1)
    ensures Valid(list, policy) ==> Valid(HandleAck(list, compId, command, ackResult).0, policy)
  {
    HandleAckMarks(list, compId, command, ackResult, false);
    HandleAckMarks(list, compId, command, ackResult, true);
    var i := FindEntryIndex(list, compId, command);
    if i != -1 && ackResult != ResultInProgress {
      RemoveAtMarks(list, i, false);
      ShrinkKeepsValid(list, HandleAck(list, compId, command, ackResult).0, policy);
    }
  }

  lemma HandleAckMarks(list: seq<Entry>, compId: int, command: int, ackResult: int, withHandler: bool)
    ensures Marks(list, withHandler) == Marks(HandleAck(list, compId, command, ackResult).0, withHandler)
                                        + ResultMarks(HandleAck(list, compId, command, ackResult).1, withHandler)
  {
    var r := HandleAck(list, compId, command, ackResult);
    var i := FindEntryIndex(list, compId, command);
    if i == -1 {
      assert r == (list, []);
    } else if ackResult == ResultInProgress {
      ResultMarksOne(Progress(list[i].handler, compId, command, ackResult), withHandler);
    } else {
      var n := Result(list[i].handler, compId, command, ackResult, CommandResultOnly);
      assert r == (list[..i] + list[i + 1..], [n]);
      ResultMarksOne(n, withHandler);
      RemoveAtMarks(list, i, withHandler);
    }
  }

  /** Removing the entry at `i` removes exactly its tag. */
  lemma RemoveAtMarks(list: seq<Entry>, i: int, withHandler: bool)
    requires 0 <= i < |list|
    ensures Marks(list, withHandler) == Marks(list[..i] + list[i + 1..], withHandler) + multiset{TagOf(list[i], withHandler)}
    ensures forall e | e in list[..i] + list[i + 1..] :: e in list
  {
    var a, x, b := list[..i], list[i], list[i + 1..];
    assert list == (a + [x]) + b;
    MarksAppend(a + [x], b, withHandler);
    MarksAppend(a, [x], withHandler);
    MarksOne(x, withHandler);
    MarksAppend(a, b, withHandler);
  }

  lemma MarksOne(x: Entry, withHandler: bool)
    ensures Marks([x], withHandler) == multiset{TagOf(x, withHandler)}
  {
    assert TagSeq([x], withHandler) == [TagOf(x, withHandler)];
  }

  lemma ResultMarksOne(n: Notice, withHandler: bool)
    ensures ResultMarks([n], withHandler)
            == if n.Result? then multiset{Tag(n.compId, n.command, n.handler, withHandler)} else multiset{}
  {
    assert [n][1..] == [];
  }

  lemma MarksAppend(a: seq<Entry>, b: seq<Entry>, withHandler: bool)
    ensures Marks(a + b, withHandler) == Marks(a, withHandler) + Marks(b, withHandler)
  {
    assert TagSeq(a + b, withHandler) == TagSeq(a, withHandler) + TagSeq(b, withHandler);
  }

  lemma {:induction false} ResultMarksAppend(a: seq<Notice>, b: seq<Notice>, withHandler: bool)
    ensures ResultMarks(a + b, withHandler) == ResultMarks(a, withHandler) + ResultMarks(b, withHandler)
    decreases |a|
  {
    if |a| == 0 {
      assert a + b == b;
    } else {
      assert (a + b)[0] == a[0];
      assert (a + b)[1..] == a[1..] + b;
      ResultMarksAppend(a[1..], b, withHandler);
    }
  }

  lemma KeysContains(list: seq<Entry>, compId: int, command: int)
    ensures Key(compId, command) in Keys(list) <==> exists i | 0 <= i < |list| :: Matches(list[i], compId, command)
  {
    var k := Key(compId, command);
    if k in Keys(list) {
      assert k in TagSeq(list, false);
      var i :| 0 <= i < |list| && TagSeq(list, false)[i] == k;
      assert Matches(list[i], compId, command);
    }
    if exists i | 0 <= i < |list| :: Matches(list[i], compId, command) {
      var i :| 0 <= i < |list| && Matches(list[i], compId, command);
      assert TagSeq(list, false)[i] == k;
    }
  }

  // ----- the periodic response check -----

  predicate Expired(e: Entry) {
    e.elapsedMSecs > e.ackTimeoutMSecs
  }

  /** What the response check does to one entry, in isolation: an entry that
      is not overdue stays as it is; an overdue one is re-sent with one more
      try and a fresh timer, or dropped when its tries are used up. */
  function AfterCheck(e: Entry): Option<Entry> {
    if !Expired(e) then Some(e)
    else if e.tryCount + 1 > e.maxTries then None
    else Some(e.(tryCount := e.tryCount + 1, elapsedMSecs := 0))
  }

  /** The reference result of a response check: every entry on its own,
      in the original order. */
  function Survivors(list: seq<Entry>): seq<Entry>
    decreases |list|
  {
    if |list| == 0 then []
    else
      var init := Survivors(list[..|list| - 1]);
      match AfterCheck(list[|list| - 1])
      case None => init
      case Some(e) => init + [e]
  }

  /** The re-send the response check owes one entry: a `Sent` with the next
      try number when the entry is overdue and still has a try left. */
  function ResendOf(e: Entry): seq<Notice> {
    if Expired(e) && e.tryCount + 1 <= e.maxTries then [Sent(e.targetCompId, e.command, e.tryCount + 1)]
    else []
  }

  /** The reference list of re-sends of a response check: one per overdue
      entry with a try left, from the back of the list to the front, which is
      the order the check walks in. */
  function Resent(list: seq<Entry>): seq<Notice>
    decreases |list|
  {
    if |list| == 0 then []
    else ResendOf(list[|list| - 1]) + Resent(list[..|list| - 1])
  }

  /** The `Sent` notices among `notices`, in order. */
  function SentOf(notices: seq<Notice>): seq<Notice>
    decreases |notices|
  {
    if |notices| == 0 then []
    else (if notices[0].Sent? then [notices[0]] else []) + SentOf(notices[1..])
  }

  lemma {:induction false} SentOfAppend(a: seq<Notice>, b: seq<Notice>)
    ensures SentOf(a + b) == SentOf(a) + SentOf(b)
    decreases |a|
  {
    if |a| > 0 {
      assert (a + b)[0] == a[0] && (a + b)[1..] == a[1..] + b;
      SentOfAppend(a[1..], b);
    } else {
      assert a + b == b;
    }
  }

  /** `_sendMavCommandFromList` applied to entry `j` if it is overdue. */
  function CheckAt(list: seq<Entry>, j: int): (seq<Entry>, seq<Notice>)
    requires 0 <= j < |list|
  {
    if Expired(list[j]) then SendFromList(list, j) else (list, [])
  }

  /** `_sendMavCommandResponseTimeoutCheck`: walk the list from the back and
      re-send or drop every overdue entry. `ScanDown(list, i)` handles
      indices `i - 1` down to `0`. */
  function ScanDown(list: seq<Entry>, i: int): (seq<Entry>, seq<Notice>)
    requires 0 <= i <= |list|
    decreases i
  {
    if i == 0 then (list, [])
    else
      var step := CheckAt(list, i - 1);
      var rest := ScanDown(step.0, i - 1);
      (rest.0, step.1 + rest.1)
  }

  /** Checking entry `j` leaves the entries below it alone, and what it
      leaves from `j` on is the reference result for entry `j` followed by
      the untouched tail. */
  lemma CheckAtShape(list: seq<Entry>, j: int)
    requires 0 <= j < |list|
    ensures j <= |CheckAt(list, j).0|
    ensures CheckAt(list, j).0[..j] == list[..j]
    ensures Survivors(list[..j + 1]) + list[j + 1..] == Survivors(list[..j]) + CheckAt(list, j).0[j..]
    ensures SentOf(CheckAt(list, j).1) == ResendOf(list[j])
  {
    var e := list[j];
    var c := CheckAt(list, j);
    assert list[..j + 1][..j] == list[..j];
    assert list[..j + 1][j] == e;
    if !Expired(e) {
      assert list[j..] == [e] + list[j + 1..];
    } else if e.tryCount + 1 > e.maxTries {
      assert c.0[..j] == list[..j];
      assert c.0[j..] == list[j + 1..];
    } else {
      var e' := e.(tryCount := e.tryCount + 1, elapsedMSecs := 0);
      assert c.0[..j] == list[..j];
      assert c.0[j..] == [e'] + list[j + 1..];
    }
  }

  /** Checking entry `j` either keeps its tag or reports it once. */
  lemma CheckAtMarks(list: seq<Entry>, j: int, withHandler: bool)
    requires 0 <= j < |list|
    ensures Marks(list, withHandler) == Marks(CheckAt(list, j).0, withHandler) + ResultMarks(CheckAt(list, j).1, withHandler)
  {
    var e := list[j];
    if !Expired(e) {
      assert ResultMarks([], withHandler) == multiset{};
    } else if e.tryCount + 1 > e.maxTries {
      RetireMarks(list, j, withHandler);
    } else {
      ResendMarks(list, j, withHandler);
    }
  }

  lemma RetireMarks(list: seq<Entry>, j: int, withHandler: bool)
    requires 0 <= j < |list|
    requires list[j].tryCount + 1 > list[j].maxTries
    ensures Marks(list, withHandler) == Marks(SendFromList(list, j).0, withHandler) + ResultMarks(SendFromList(list, j).1, withHandler)
  {
    var e := list[j];
    var n := Result(e.handler, e.targetCompId, e.command, ResultFailed, FailureNoResponseToCommand);
    assert SendFromList(list, j) == (list[..j] + list[j + 1..], [n]);
    RemoveAtMarks(list, j, withHandler);
    ResultMarksOne(n, withHandler);
  }

  lemma ResendMarks(list: seq<Entry>, j: int, withHandler: bool)
    requires 0 <= j < |list|
    requires list[j].tryCount + 1 <= list[j].maxTries
    ensures Marks(list, withHandler) == Marks(SendFromList(list, j).0, withHandler) + ResultMarks(SendFromList(list, j).1, withHandler)
  {
    var e := list[j];
    var e' := e.(tryCount := e.tryCount + 1, elapsedMSecs := 0);
    var n := Sent(e.targetCompId, e.command, e.tryCount + 1);
    assert SendFromList(list, j) == (list[j := e'], [n]);
    ResultMarksOne(n, withHandler);
    ReplaceAtMarks(list, j, e', withHandler);
  }

  /** Replacing an entry by one with the same key and handler keeps the tags. */
  lemma ReplaceAtMarks(list: seq<Entry>, j: int, x: Entry, withHandler: bool)
    requires 0 <= j < |list|
    requires TagOf(x, true) == TagOf(list[j], true)
    ensures Marks(list[j := x], withHandler) == Marks(list, withHandler)
  {
    var a, y, b := list[..j], list[j], list[j + 1..];
    assert list == (a + [y]) + b;
    assert list[j := x] == (a + [x]) + b;
    MarksAppend(a + [y], b, withHandler);
    MarksAppend(a + [x], b, withHandler);
    MarksAppend(a, [y], withHandler);
    MarksAppend(a, [x], withHandler);
    MarksOne(x, withHandler);
    MarksOne(y, withHandler);
  }

  /** Checking entry `j` keeps every entry well formed; a drop is reported as
      unanswered, and a re-send carries a try number within the budget. */
  lemma CheckAtNotices(list: seq<Entry>, j: int, policy: Policy)
    requires 0 <= j < |list|
    requires forall e | e in list :: WellFormed(e, policy)
    ensures forall e | e in CheckAt(list, j).0 :: WellFormed(e, policy)
    ensures forall n | n in CheckAt(list, j).1 ::
              n.Result? ==> n.failure == FailureNoResponseToCommand && n.ackResult == ResultFailed
    ensures forall n | n in CheckAt(list, j).1 ::
              n.Sent? ==> 2 <= n.tryCount <= MaxTriesFor(policy, n.command)
  {
    var e := list[j];
    assert e in list;
    var c := CheckAt(list, j);
    if Expired(e) && e.tryCount + 1 > e.maxTries {
      RemoveAtMarks(list, j, false);
    } else if Expired(e) {
      var e' := e.(tryCount := e.tryCount + 1, elapsedMSecs := 0);
      forall x | x in c.0
        ensures WellFormed(x, policy)
      {
        var k :| 0 <= k < |c.0| && c.0[k] == x;
        if k != j {
          assert x == list[k];
        }
      }
    }
  }

  /** The walk over indices `i - 1` down to `0` leaves the reference
      survivors of those entries followed by the untouched tail. */
  lemma {:induction false} ScanDownShape(list: seq<Entry>, i: int)
    requires 0 <= i <= |list|
    ensures ScanDown(list, i).0 == Survivors(list[..i]) + list[i..]
    decreases i
  {
    if i == 0 {
      assert list[..0] == [] && list[0..] == list;
    } else {
      var step := CheckAt(list, i - 1);
      CheckAtShape(list, i - 1);
      ScanDownShape(step.0, i - 1);
      var rest := ScanDown(step.0, i - 1);
      assert ScanDown(list, i) == (rest.0, step.1 + rest.1);
      assert step.0[..i - 1] == list[..i - 1];
    }
  }

  /** Every key (or tag) the walk removes from the list is reported in
      exactly one `Result` notice. */
  lemma {:induction false} ScanDownMarks(list: seq<Entry>, i: int, withHandler: bool)
    requires 0 <= i <= |list|
    ensures Marks(list, withHandler) == Marks(ScanDown(list, i).0, withHandler) + ResultMarks(ScanDown(list, i).1, withHandler)
    decreases i
  {
    if i == 0 {
      assert ResultMarks([], withHandler) == multiset{};
    } else {
      var step := CheckAt(list, i - 1);
      CheckAtShape(list, i - 1);
      CheckAtMarks(list, i - 1, withHandler);
      ScanDownMarks(step.0, i - 1, withHandler);
      var rest := ScanDown(step.0, i - 1);
      assert ScanDown(list, i) == (rest.0, step.1 + rest.1);
      ResultMarksAppend(step.1, rest.1, withHandler);
      var here, later := ResultMarks(step.1, withHandler), ResultMarks(rest.1, withHandler);
      assert Marks(list, withHandler) == Marks(rest.0, withHandler) + later + here;
    }
  }

  /** Every drop the walk reports is an unanswered command, and every
      re-send stays within the command's budget. */
  lemma {:induction false} ScanDownNotices(list: seq<Entry>, i: int, policy: Policy)
    requires 0 <= i <= |list|
    requires forall e | e in list :: WellFormed(e, policy)
    ensures forall n | n in ScanDown(list, i).1 ::
              n.Result? ==> n.failure == FailureNoResponseToCommand && n.ackResult == ResultFailed
    ensures forall n | n in ScanDown(list, i).1 ::
              n.Sent? ==> 2 <= n.tryCount <= MaxTriesFor(policy, n.command)
    decreases i
  {
    if i > 0 {
      var step := CheckAt(list, i - 1);
      CheckAtShape(list, i - 1);
      CheckAtNotices(list, i - 1, policy);
      ScanDownNotices(step.0, i - 1, policy);
      var rest := ScanDown(step.0, i - 1);
      assert ScanDown(list, i) == (rest.0, step.1 + rest.1);
    }
  }

  /** The re-sends of the walk over indices `i - 1` down to `0` are the
      reference re-sends of those entries. */
  lemma {:induction false} ScanDownSent(list: seq<Entry>, i: int)
    requires 0 <= i <= |list|
    ensures SentOf(ScanDown(list, i).1) == Resent(list[..i])
    decreases i
  {
    if i > 0 {
      var step := CheckAt(list, i - 1);
      CheckAtShape(list, i - 1);
      ScanDownSent(step.0, i - 1);
      var rest := ScanDown(step.0, i - 1);
      assert ScanDown(list, i) == (rest.0, step.1 + rest.1);
      SentOfAppend(step.1, rest.1);
      assert step.0[..i - 1] == list[..i - 1];
      assert list[..i][..i - 1] == list[..i - 1] && list[..i][i - 1] == list[i - 1];
    }
  }

  /** The response check over the whole list. Its result is the
      entry-by-entry reference result, every dropped entry is reported once
      as unanswered to its own handler, and every re-send carries a try number no higher than
      the command's budget (so a command that must not be retried is never
      re-sent). */
  function TimeoutCheck(list: seq<Entry>, policy: Policy): (r: (seq<Entry>, seq<Notice>))
    requires forall e | e in list :: WellFormed(e, policy)
    ensures r.0 == Survivors(list)
    ensures Keys(list) == Keys(r.0) + ResultKeys(r.1)
    ensures Tags(list) == Tags(r.0) + ResultTags(r.1)
    ensures forall n | n in r.1 :: n.Result? ==> n.failure == FailureNoResponseToCommand && n.ackResult == ResultFailed
    ensures forall n | n in r.1 :: n.Sent? ==> 2 <= n.tryCount <= MaxTriesFor(policy, n.command)
    ensures SentOf(r.1) == Resent(list)
  {
    ScanDownShape(list, |list|);
    ScanDownMarks(list, |list|, false);
    ScanDownMarks(list, |list|, true);
    ScanDownNotices(list, |list|, policy);
    ScanDownSent(list, |list|);
    assert list[..|list|] == list;
    ScanDown(list, |list|)
  }

  /** The re-send owed to any one entry is among the reference re-sends. */
  lemma {:induction false} ResentHas(list: seq<Entry>, j: int, x: Notice)
    requires 0 <= j < |list|
    requires x in ResendOf(list[j])
    ensures x in Resent(list)
    decreases |list|
  {
    var init := list[..|list| - 1];
    assert Resent(list) == ResendOf(list[|list| - 1]) + Resent(init);
    if j < |list| - 1 {
      assert init[j] == list[j];
      ResentHas(init, j, x);
    }
  }

  lemma {:induction false} SentOfWithin(notices: seq<Notice>, x: Notice)
    requires x in SentOf(notices)
    ensures x in notices
    decreases |notices|
  {
    var head := if notices[0].Sent? then [notices[0]] else [];
    assert SentOf(notices) == head + SentOf(notices[1..]);
    if x !in head {
      SentOfWithin(notices[1..], x);
      assert notices == [notices[0]] + notices[1..];
    }
  }

  /** An entry that is overdue after `dt` more milliseconds and has a try
      left owes its next try to the reference re-sends of the advanced list. */
  lemma OverdueResend(list: seq<Entry>, dt: nat, j: int)
    requires 0 <= j < |list|
    requires list[j].elapsedMSecs + dt > list[j].ackTimeoutMSecs
    requires list[j].tryCount + 1 <= list[j].maxTries
    ensures Sent(list[j].targetCompId, list[j].command, list[j].tryCount + 1) in Resent(Advance(list, dt))
  {
    var adv := Advance(list, dt);
    var x := Sent(list[j].targetCompId, list[j].command, list[j].tryCount + 1);
    assert adv[j] == list[j].(elapsedMSecs := list[j].elapsedMSecs + dt);
    assert ResendOf(adv[j]) == [x];
    ResentHas(adv, j, x);
  }

  /** "If no Ack is received command will be retried": an entry that is
      overdue once the period has passed and still has a try left is put on
      the link again by that firing, with its next try number. */
  lemma OverdueEntryResent(list: seq<Entry>, policy: Policy, j: int)
    requires Stored(list, policy)
    requires 0 <= j < |list|
    requires list[j].elapsedMSecs + ResponseCheckTimeoutMSecs > list[j].ackTimeoutMSecs
    requires list[j].tryCount + 1 <= list[j].maxTries
    ensures Sent(list[j].targetCompId, list[j].command, list[j].tryCount + 1) in Tick(list, policy).1
  {
    OverdueResend(list, ResponseCheckTimeoutMSecs, j);
    SentOfWithin(Tick(list, policy).1, Sent(list[j].targetCompId, list[j].command, list[j].tryCount + 1));
  }

  /** Let `dt` milliseconds pass for every entry. */
  function Advance(list: seq<Entry>, dt: nat): (r: seq<Entry>)
    ensures |r| == |list|
    ensures forall i | 0 <= i < |list| :: r[i] == list[i].(elapsedMSecs := list[i].elapsedMSecs + dt)
  {
    seq(|list|, i requires 0 <= i < |list| => list[i].(elapsedMSecs := list[i].elapsedMSecs + dt))
  }

  /** One firing of `_mavCommandResponseCheckTimer`. */
  function Tick(list: seq<Entry>, policy: Policy): (r: (seq<Entry>, seq<Notice>))
    requires Stored(list, policy)
    ensures r.0 == Survivors(Advance(list, ResponseCheckTimeoutMSecs))
    ensures Stored(r.0, policy)
    ensures Valid(list, policy) ==> Valid(r.0, policy)
    ensures Keys(list) == Keys(r.0) + ResultKeys(r.1)
    ensures Tags(list) == Tags(r.0) + ResultTags(r.1)
    ensures forall n | n in r.1 :: n.Result? ==> n.failure == FailureNoResponseToCommand && n.ackResult == ResultFailed
    ensures forall n | n in r.1 :: n.Sent? ==> 2 <= n.tryCount <= MaxTriesFor(policy, n.command)
    ensures SentOf(r.1) == Resent(Advance(list, ResponseCheckTimeoutMSecs))
  {
    var advanced := Advance(list, ResponseCheckTimeoutMSecs);
    AdvanceFacts(list, ResponseCheckTimeoutMSecs, policy);
    var r := TimeoutCheck(advanced, policy);
    SurvivorsSettled(advanced, policy);
    ShrinkKeepsValid(list, r.0, policy);
    r
  }

  lemma AdvanceFacts(list: seq<Entry>, dt: nat, policy: Policy)
    requires forall e | e in list :: WellFormed(e, policy)
    ensures Keys(Advance(list, dt)) == Keys(list)
    ensures Tags(Advance(list, dt)) == Tags(list)
    ensures forall e | e in Advance(list, dt) :: WellFormed(e, policy)
  {
    var a := Advance(list, dt);
    assert TagSeq(a, false) == TagSeq(list, false);
    assert TagSeq(a, true) == TagSeq(list, true);
    forall e | e in a
      ensures WellFormed(e, policy)
    {
      var i :| 0 <= i < |a| && a[i] == e;
      assert list[i] in list;
    }
  }

  /** Everything the check keeps is well formed and no longer overdue. */
  lemma {:induction false} SurvivorsSettled(list: seq<Entry>, policy: Policy)
    requires forall e | e in list :: WellFormed(e, policy)
    ensures forall e | e in Survivors(list) :: WellFormed(e, policy) && Settled(e)
    decreases |list|
  {
    if |list| > 0 {
      var init := list[..|list| - 1];
      assert forall e | e in init :: e in list;
      SurvivorsSettled(init, policy);
      assert list[|list| - 1] in list;
    }
  }

  /** Dropping or updating entries in place never breaks the invariant:
      no key gains an occurrence and every kept entry was already valid. */
  lemma ShrinkKeepsValid(list: seq<Entry>, list': seq<Entry>, policy: Policy)
    requires Keys(list') <= Keys(list)
    requires forall e | e in list' :: (e in list || (WellFormed(e, policy) && Settled(e)))
    ensures Valid(list, policy) ==> Valid(list', policy)
  {
    if Valid(list, policy) {
      forall k | k in Keys(list') && !policy.CanBeDuplicated(k.1)
        ensures Keys(list')[k] <= 1
      {
        assert Keys(list')[k] <= Keys(list)[k];
      }
    }
  }

  // ----- every accepted command is eventually reported -----

  /** An upper bound, in milliseconds, on how long an entry can still wait
      without an ack: the tries it has left, each lasting at most one timeout
      plus one check period, minus the time already spent on this try. */
  function Budget(e: Entry): int {
    (e.maxTries - e.tryCount + 1) * (e.ackTimeoutMSecs + ResponseCheckTimeoutMSecs) - e.elapsedMSecs
  }

  function TotalBudget(list: seq<Entry>): int
    decreases |list|
  {
    if |list| == 0 then 0
    else TotalBudget(list[..|list| - 1]) + Budget(list[|list| - 1])
  }

  /** A stored entry always has at least one check period of budget left,
      and one check period either retires it or takes at least that much
      budget away. */
  lemma BudgetStep(e: Entry, policy: Policy)
    requires WellFormed(e, policy) && Settled(e)
    ensures Budget(e) >= ResponseCheckTimeoutMSecs
    ensures var a := AfterCheck(e.(elapsedMSecs := e.elapsedMSecs + ResponseCheckTimeoutMSecs));
      a.Some? ==> Budget(a.value) <= Budget(e) - ResponseCheckTimeoutMSecs
  {
    var period := e.ackTimeoutMSecs + ResponseCheckTimeoutMSecs;
    var left := e.maxTries - e.tryCount;
    assert (left + 1) * period == left * period + period;
    assert left * period >= 0;
  }

  lemma {:induction false} TickBudget(list: seq<Entry>, policy: Policy)
    requires forall e | e in list :: WellFormed(e, policy) && Settled(e)
    ensures TotalBudget(list) >= 500 * |list|
    ensures TotalBudget(Survivors(Advance(list, ResponseCheckTimeoutMSecs)))
            <= TotalBudget(list) - 500 * |list|
    decreases |list|
  {
    if |list| > 0 {
      var init, e := list[..|list| - 1], list[|list| - 1];
      assert list == init + [e];
      assert e in list;
      forall x | x in init
        ensures WellFormed(x, policy) && Settled(x)
      {
        assert x in list;
      }
      TickBudget(init, policy);
      SnocBudget(init, e, policy);
    }
  }

  /** The induction step of `TickBudget`: one more entry at the end. */
  lemma SnocBudget(init: seq<Entry>, e: Entry, policy: Policy)
    requires WellFormed(e, policy) && Settled(e)
    requires TotalBudget(init) >= 500 * |init|
    requires TotalBudget(Survivors(Advance(init, ResponseCheckTimeoutMSecs))) <= TotalBudget(init) - 500 * |init|
    ensures TotalBudget(init + [e]) >= 500 * |init + [e]|
    ensures TotalBudget(Survivors(Advance(init + [e], ResponseCheckTimeoutMSecs)))
            <= TotalBudget(init + [e]) - 500 * |init + [e]|
  {
    var dt := ResponseCheckTimeoutMSecs;
    var s := Survivors(Advance(init, dt));
    var bumped := e.(elapsedMSecs := e.elapsedMSecs + dt);
    TotalBudgetSnoc(init, e);
    BudgetStep(e, policy);
    AdvanceSnoc(init, e, dt);
    SurvivorsSnoc(Advance(init, dt), bumped);
    if AfterCheck(bumped).Some? {
      TotalBudgetSnoc(s, AfterCheck(bumped).value);
    }
  }

  lemma AdvanceSnoc(list: seq<Entry>, x: Entry, dt: nat)
    ensures Advance(list + [x], dt) == Advance(list, dt) + [x.(elapsedMSecs := x.elapsedMSecs + dt)]
  {
    var l, r := Advance(list + [x], dt), Advance(list, dt) + [x.(elapsedMSecs := x.elapsedMSecs + dt)];
    assert |l| == |r|;
    forall i | 0 <= i < |l|
      ensures l[i] == r[i]
    {
      if i < |list| {
        assert (list + [x])[i] == list[i];
      }
    }
  }

  lemma SurvivorsSnoc(list: seq<Entry>, x: Entry)
    ensures Survivors(list + [x]) == match AfterCheck(x)
      case None => Survivors(list)
      case Some(y) => Survivors(list) + [y]
  {
    assert (list + [x])[..|list|] == list;
  }

  lemma TotalBudgetSnoc(list: seq<Entry>, x: Entry)
    ensures TotalBudget(list + [x]) == TotalBudget(list) + Budget(x)
  {
    assert (list + [x])[..|list|] == list;
  }

  /** `n` firings of the response check with no ack in between. */
  function TickN(list: seq<Entry>, policy: Policy, n: nat): (r: (seq<Entry>, seq<Notice>))
    requires Stored(list, policy)
    ensures Stored(r.0, policy)
    ensures r.0 == Remaining(list, n)
    ensures Keys(list) == Keys(r.0) + ResultKeys(r.1)
    ensures Tags(list) == Tags(r.0) + ResultTags(r.1)
    ensures forall x | x in r.1 :: x.Result? ==> x.failure == FailureNoResponseToCommand && x.ackResult == ResultFailed
    decreases n
  {
    if n == 0 then
      assert ResultKeys([]) == multiset{} && ResultTags([]) == multiset{};
      (list, [])
    else
      var t := Tick(list, policy);
      var rest := TickN(t.0, policy, n - 1);
      ResultMarksAppend(t.1, rest.1, false);
      ResultMarksAppend(t.1, rest.1, true);
      (rest.0, t.1 + rest.1)
  }

  /** The entries left after `n` unanswered response checks. */
  function Remaining(list: seq<Entry>, n: nat): seq<Entry>
    decreases n
  {
    if n == 0 then list
    else Remaining(Survivors(Advance(list, ResponseCheckTimeoutMSecs)), n - 1)
  }

  /** If nothing is ever acked, enough response checks empty the list. */
  lemma {:induction false} TicksDrain(list: seq<Entry>, policy: Policy, n: nat)
    requires Stored(list, policy)
    requires 500 * n >= TotalBudget(list)
    ensures Remaining(list, n) == []
    decreases n
  {
    TickBudget(list, policy);
    if n == 0 {
      assert |list| == 0;
    } else {
      var adv := Advance(list, ResponseCheckTimeoutMSecs);
      var next := Survivors(adv);
      AdvanceFacts(list, ResponseCheckTimeoutMSecs, policy);
      SurvivorsSettled(adv, policy);
      if |list| == 0 {
        assert next == [];
      }
      TicksDrain(next, policy, n - 1);
    }
  }

  /** Exactly one terminal result per accepted command: if nothing is ever
      acked, enough response checks empty the list, and by then every entry
      has been reported exactly once, to its own handler (the reported
      (key, handler) pairs are the stored ones, with multiplicity). */
  lemma UnackedCommandsAllResolve(list: seq<Entry>, policy: Policy, n: nat)
    requires Stored(list, policy)
    requires 500 * n >= TotalBudget(list)
    ensures TickN(list, policy, n).0 == []
    ensures ResultKeys(TickN(list, policy, n).1) == Keys(list)
    ensures ResultTags(TickN(list, policy, n).1) == Tags(list)
  {
    TicksDrain(list, policy, n);
    assert Keys([]) == multiset{} && Tags([]) == multiset{};
  }
}

=== FILE: joystick_manager.dfy ===
/** `JoystickManager`: the name-to-joystick map found by discovery, the
    active joystick chosen from it, the joystick name kept in the settings,
    and the counter that bounds the Android re-polls. Discovery results and
    the saved settings value are plain inputs; persisting a name and the
    Qt signals are events in the result. */
module JoystickManager {
  import opened Optional

  /** A joystick object. `handle` stands for the object's identity (its
      address), so two joysticks with one name can still differ. */
  datatype Joystick = Joystick(name: string, handle: nat)

  /** What an operation does outside the manager's own fields. */
  datatype Event =
    | StopPolling(joystick: Joystick)          // `Joystick::stopPolling`
    | Released(joystick: Joystick)             // unplugged: stopped and deleted
    | Persist(name: string)                    // written to the settings
    | ActiveJoystickChanged(active: Option<Joystick>)
    | ActiveJoystickNameChanged(name: string)
    | AvailableJoysticksChanged

  /** `_joystickCheckTimer` and `_joystickCheckTimerCounter`. */
  datatype Poller = Poller(counter: int, running: bool)

  /** `_name2JoystickMap` (its entries in key order, each keyed by its own
      name), `_activeJoystick`, the settings value under
      `_settingsKeyActiveJoystick` ("" when never written), and the poller. */
  datatype Manager = Manager(joysticks: seq<Joystick>, active: Option<Joystick>,
                             saved: string, poller: Poller)

  /** The number of re-polls one start of the check timer allows. */
  const PollCount: int := 5

  /** Lexicographic order on names, the order of `QMap`'s keys. */
  predicate Less(a: string, b: string)
    decreases |a|
  {
    |b| > 0 && (|a| == 0 || a[0] < b[0] || (a[0] == b[0] && Less(a[1..], b[1..])))
  }

  /** The keys of a map. */
  function Names(js: seq<Joystick>): set<string> {
    set j | j in js :: j.name
  }

  /** A `QMap`: keys strictly increasing. */
  predicate Sorted(js: seq<Joystick>) {
    forall i, k | 0 <= i < k < |js| :: Less(js[i].name, js[k].name)
  }

  /** The central invariant: no joystick is active, or the active one's name
      is a key of the map. */
  predicate ActiveInMap(m: Manager) {
    m.active.None? || m.active.value.name in Names(m.joysticks)
  }

  /** `map[n]` for a key `n`. */
  function Lookup(js: seq<Joystick>, n: string): (r: Joystick)
    requires n in Names(js)
    ensures r in js && r.name == n
    ensures Sorted(js) ==> forall j | j in js && j.name == n :: j == r
  {
    if js[0].name == n then
      SortedHeadUnique(js);
      js[0]
    else
      assert js[0] in js;
      assert n in Names(js[1..]) by {
        var j :| j in js && j.name == n;
        assert j != js[0] && j in js[1..];
      }
      Lookup(js[1..], n)
  }

  /** In a `QMap` no key follows itself. */
  lemma SortedHeadUnique(js: seq<Joystick>)
    requires |js| > 0
    ensures Sorted(js) ==> forall j | j in js[1..] :: j.name != js[0].name
  {
    if Sorted(js) {
      forall j | j in js[1..]
        ensures j.name != js[0].name
      {
        var i :| 0 <= i < |js[1..]| && js[1..][i] == j;
        assert Less(js[0].name, js[i + 1].name);
        LessIrreflexive(js[0].name);
      }
    }
  }

  lemma {:induction false} LessIrreflexive(a: string)
    ensures !Less(a, a)
    decreases |a|
  {
    if |a| > 0 {
      LessIrreflexive(a[1..]);
    }
  }

  function NameOf(j: Option<Joystick>): string {
    if j.Some? then j.value.name else ""
  }

  /** `setActiveJoystick`. A joystick whose name is not a key is refused;
      setting the active joystick again does nothing; otherwise the old one
      stops polling, the new one becomes active and its name is persisted,
      and both change signals go out. */
  function SetActiveJoystick(m: Manager, joystick: Option<Joystick>): (r: (Manager, seq<Event>))
    ensures joystick.Some? && joystick.value.name !in Names(m.joysticks) ==> r == (m, [])
    ensures m.active == joystick ==> r == (m, [])
    ensures ActiveInMap(m) ==> ActiveInMap(r.0)
    ensures r.0.joysticks == m.joysticks && r.0.poller == m.poller
    ensures r.0 != m ==> r.0.active == joystick
    ensures r.0.active == joystick || r.0 == m
    ensures forall e | e in r.1 :: !e.Released?
    ensures (joystick.None? || joystick.value.name in Names(m.joysticks)) && m.active != joystick ==>
              && r.0.active == joystick
              && r.0.saved == (if joystick.Some? then joystick.value.name else m.saved)
              && (Persist(NameOf(joystick)) in r.1 <==> joystick.Some?)
              && (m.active.Some? ==> StopPolling(m.active.value) in r.1)
              && (m.active.None? ==> forall e | e in r.1 :: !e.StopPolling?)
              && |r.1| >= 2
              && r.1[|r.1| - 2..] == [ActiveJoystickChanged(joystick), ActiveJoystickNameChanged(NameOf(joystick))]
  {
    if joystick.Some? && joystick.value.name !in Names(m.joysticks) then (m, [])
    else if m.active == joystick then (m, [])
    else
      var stop := if m.active.Some? then [StopPolling(m.active.value)] else [];
      var persist := if joystick.Some? then [Persist(joystick.value.name)] else [];
      var saved := if joystick.Some? then joystick.value.name else m.saved;
      (m.(active := joystick, saved := saved),
       stop + persist + [ActiveJoystickChanged(joystick), ActiveJoystickNameChanged(NameOf(joystick))])
  }

  /** Setting a joystick and then setting it again is the same as setting it
      once: the second call changes nothing and announces nothing. */
  lemma SetActiveJoystickIdempotent(m: Manager, joystick: Option<Joystick>)
    ensures SetActiveJoystick(SetActiveJoystick(m, joystick).0, joystick)
            == (SetActiveJoystick(m, joystick).0, [])
  {
  }

  /** `activeJoystickName`: the active joystick's name, "" when none is
      active. */
  function ActiveJoystickName(m: Manager): (r: string)
    ensures m.active.None? ==> r == ""
    ensures m.active.Some? ==> r == m.active.value.name
    ensures (forall j | j in m.joysticks :: j.name != "") && ActiveInMap(m) ==>
              (r == "" <==> m.active.None?)
  {
    if m.active.Some? then m.active.value.name else ""
  }

  /** `setActiveJoystickName`: activates `map[name]` and answers true when
      `name` is a key; otherwise answers false and changes nothing. */
  function SetActiveJoystickName(m: Manager, name: string): (r: (Manager, seq<Event>, bool))
    ensures r.2 <==> name in Names(m.joysticks)
    ensures r.2 ==> r.0.active == Some(Lookup(m.joysticks, name)) && r.0.active.value.name == name
    ensures !r.2 ==> r.0 == m && r.1 == []
    ensures ActiveInMap(m) ==> ActiveInMap(r.0)
  {
    if name in Names(m.joysticks) then
      var (m', events) := SetActiveJoystick(m, Some(Lookup(m.joysticks, name)));
      (m', events, true)
    else
      (m, [], false)
  }

  /** The joysticks of the old map whose names are missing from the new
      one, in key order: they have been unplugged. */
  function Unplugged(previous: seq<Joystick>, discovered: seq<Joystick>): (r: seq<Event>)
    ensures forall e | e in r :: e.Released?
    ensures forall j :: Released(j) in r <==> j in previous && j.name !in Names(discovered)
  {
    if |previous| == 0 then []
    else
      (if previous[0].name in Names(discovered) then [] else [Released(previous[0])])
      + Unplugged(previous[1..], discovered)
  }

  /** The joystick `_setActiveJoystickFromSettings` picks from a non-empty
      map: the one under the saved name, or the first one when no name is
      saved or the saved name is not a key. */
  function Chosen(js: seq<Joystick>, saved: string): (r: Joystick)
    requires |js| > 0
    ensures r in js
    ensures saved != "" && saved in Names(js) ==> r.name == saved
    ensures !(saved != "" && saved in Names(js)) ==> r.name == js[0].name
  {
    var name := if saved == "" then js[0].name else saved;
    assert js[0] in js;
    if name in Names(js) then Lookup(js, name) else js[0]
  }

  /** The first half of `_setActiveJoystickFromSettings`: an active
      joystick that was unplugged is cleared, the unplugged joysticks are
      released, and the map becomes the discovered one. */
  function Reconcile(m: Manager, discovered: seq<Joystick>): (r: (Manager, seq<Event>))
    ensures r.0.joysticks == discovered && r.0.poller == m.poller && r.0.saved == m.saved
    ensures ActiveInMap(r.0)
    ensures m.active.Some? && m.active.value.name !in Names(discovered) ==>
              r.0.active.None? && StopPolling(m.active.value) in r.1
    ensures !(m.active.Some? && m.active.value.name !in Names(discovered)) ==> r.0.active == m.active
    ensures forall j :: Released(j) in r.1 <==> j in m.joysticks && j.name !in Names(discovered)
    ensures AvailableJoysticksChanged in r.1
  {
    var (m1, e1) := if m.active.Some? && m.active.value.name !in Names(discovered)
                    then SetActiveJoystick(m, None)
                    else (m, []);
    (m1.(joysticks := discovered), e1 + Unplugged(m.joysticks, discovered) + [AvailableJoysticksChanged])
  }

  /** The second half: with an empty map nothing is active; otherwise the
      saved (or first) joystick is made active and its name persisted. */
  function SelectFromSettings(m: Manager): (r: (Manager, seq<Event>))
    ensures r.0.joysticks == m.joysticks && r.0.poller == m.poller
    ensures forall e | e in r.1 :: !e.Released?
    ensures |m.joysticks| == 0 ==> r.0.active.None?
    ensures |m.joysticks| > 0 ==>
              && r.0.active == Some(Chosen(m.joysticks, m.saved))
              && r.0.saved == r.0.active.value.name
              && Persist(r.0.active.value.name) in r.1
  {
    if |m.joysticks| == 0 then
      SetActiveJoystick(m, None)
    else
      var j := Chosen(m.joysticks, m.saved);
      var (m', events) := SetActiveJoystick(m, Some(j));
      (m'.(saved := j.name), events + [Persist(j.name)])
  }

  /** `_setActiveJoystickFromSettings` after discovery returned
      `discovered`: the unplugged active joystick is cleared and the map
      replaced, then the joystick under the saved name, or else the first
      one, becomes active and its name is persisted. */
  function Rediscover(m: Manager, discovered: seq<Joystick>): (r: (Manager, seq<Event>))
    ensures r.0.joysticks == discovered
    ensures r.0.poller == m.poller
    ensures ActiveInMap(r.0)
    ensures |discovered| == 0 ==> r.0.active.None?
    ensures |discovered| > 0 ==>
              && r.0.active.Some? && r.0.active.value in discovered
              && (m.saved != "" && m.saved in Names(discovered) ==> r.0.active.value.name == m.saved)
              && (!(m.saved != "" && m.saved in Names(discovered)) ==> r.0.active.value.name == discovered[0].name)
              && r.0.saved == r.0.active.value.name
              && Persist(r.0.active.value.name) in r.1
    ensures m.active.Some? && m.active.value.name !in Names(discovered) ==> StopPolling(m.active.value) in r.1
    ensures forall j :: Released(j) in r.1 <==> j in m.joysticks && j.name !in Names(discovered)
    ensures AvailableJoysticksChanged in r.1
  {
    var (m1, e1) := Reconcile(m, discovered);
    var (m2, e2) := SelectFromSettings(m1);
    (m2, e1 + e2)
  }

  /** On a `QMap` the first entry has the least key, so without a saved name
      the alphabetically first joystick is chosen. */
  lemma FirstIsLeast(js: seq<Joystick>, saved: string)
    requires Sorted(js) && |js| > 0
    ensures forall j | j in js && j != js[0] :: Less(js[0].name, j.name)
    ensures saved == "" ==> Chosen(js, saved) == js[0]
  {
    forall j | j in js && j != js[0]
      ensures Less(js[0].name, j.name)
    {
      var i :| 0 <= i < |js| && js[i] == j;
    }
  }

  /** Starting the check timer: `init` and, on Android, every
      `updateAvailableJoysticksSignal`. */
  function StartPolling(p: Poller): (r: Poller)
    ensures r.running && r.counter == PollCount
  {
    Poller(PollCount, true)
  }

  /** The timer's part of the Android `_updateAvailableJoysticks`: a firing
      counts down, rediscovers, and stops the timer once the count reaches
      zero. A stopped timer does not fire. */
  function PollStep(p: Poller): (r: (Poller, bool))
    ensures r.1 <==> p.running
    ensures !p.running ==> r.0 == p
    ensures p.running ==> r.0.counter == p.counter - 1 && (r.0.running <==> r.0.counter > 0)
  {
    if !p.running then (p, false)
    else
      var counter := p.counter - 1;
      (Poller(counter, counter > 0), true)
  }

  /** A running timer always has a positive count. */
  predicate PollerValid(p: Poller) {
    p.running ==> p.counter >= 1
  }

  /** `n` firings of the check timer; the number of rediscoveries. */
  function Polls(p: Poller, n: nat): (r: (Poller, nat))
    ensures r.1 <= n
    decreases n
  {
    if n == 0 then (p, 0)
    else
      var (p', polled) := PollStep(p);
      var rest := Polls(p', n - 1);
      (rest.0, rest.1 + (if polled then 1 else 0))
  }

  /** From a running timer, `n` firings rediscover `min(n, counter)` times
      and the timer is stopped once the counter is used up. */
  lemma {:induction false} PollsCount(p: Poller, n: nat)
    requires PollerValid(p)
    ensures Polls(p, n).1 == (if !p.running then 0 else if n < p.counter then n else p.counter)
    ensures p.running && n >= p.counter ==> !Polls(p, n).0.running
    ensures PollerValid(Polls(p, n).0)
    ensures !p.running ==> Polls(p, n).0 == p
    decreases n
  {
    if n > 0 {
      var p' := PollStep(p).0;
      PollsCount(p', n - 1);
    }
  }

  /** Each start of the check timer allows at most five rediscoveries, and
      exactly `min(n, 5)` in `n` firings. */
  lemma AtMostFivePolls(p: Poller, n: nat)
    ensures Polls(StartPolling(p), n).1 == (if n < PollCount then n else PollCount)
    ensures Polls(StartPolling(p), n).1 <= PollCount
  {
    PollsCount(StartPolling(p), n);
  }

  /** The Android branch of `_updateAvailableJoysticks`, one timer firing:
      count down, rediscover with what discovery returned, and stop the timer
      once the count reaches zero. */
  function AndroidTick(m: Manager, discovered: seq<Joystick>): (r: (Manager, seq<Event>))
    ensures !m.poller.running ==> r == (m, [])
    ensures m.poller.running ==>
              && r.0.joysticks == discovered
              && r.0.poller == PollStep(m.poller).0
    // a firing is one full rediscovery, events included, with the timer
    // counted down
    ensures m.poller.running ==>
              var d := Rediscover(m, discovered);
              r == (d.0.(poller := PollStep(m.poller).0), d.1)
    ensures ActiveInMap(m) ==> ActiveInMap(r.0)
  {
    var (p, polled) := PollStep(m.poller);
    if !polled then (m, [])
    else
      var (m', events) := Rediscover(m, discovered);
      (m'.(poller := p), events)
  }

  /** Everything that can happen to the manager. */
  datatype Op =
    | SetActive(joystick: Option<Joystick>)
    | SetActiveName(name: string)
    | Discover(discovered: seq<Joystick>)
    | Start
    | Tick(discovered: seq<Joystick>)

  function Step(m: Manager, op: Op): Manager {
    match op
    case SetActive(j) => SetActiveJoystick(m, j).0
    case SetActiveName(n) => SetActiveJoystickName(m, n).0
    case Discover(d) => Rediscover(m, d).0
    case Start => m.(poller := StartPolling(m.poller))
    case Tick(d) => AndroidTick(m, d).0
  }

  function Run(m: Manager, ops: seq<Op>): Manager
    decreases |ops|
  {
    if |ops| == 0 then m else Run(Step(m, ops[0]), ops[1..])
  }

  /** Every sequence of operations keeps the active joystick null or in the
      map. */
  lemma {:induction false} RunKeepsActiveInMap(m: Manager, ops: seq<Op>)
    requires ActiveInMap(m)
    ensures ActiveInMap(Run(m, ops))
    decreases |ops|
  {
    if |ops| > 0 {
      RunKeepsActiveInMap(Step(m, ops[0]), ops[1..]);
    }
  }
}

=== FILE: mavlink.dfy ===
/** Shared MAVLink vocabulary of the command layer: the MAV_RESULT codes
    the layer inspects, the command codes it issues itself, and an opaque
    inbound message. Payload contents are never interpreted. */
module Mavlink {

  /** MAV_RESULT codes, as carried in COMMAND_ACK.result (a uint8 on the wire).
      Only these values change the layer's behaviour; any other code is
      passed through to the result handler unchanged. */
  const ResultAccepted: int := 0
  const ResultFailed: int := 4
  const ResultInProgress: int := 5

  /** MAV_CMD_REQUEST_MESSAGE, the command behind Vehicle::requestMessage. */
  const CmdRequestMessage: int := 512

  /** A received message: the sending component, the message id and an
      opaque payload. */
  datatype Message = Message(compId: int, msgId: int, payload: seq<int>)
}

=== FILE: optional.dfy ===
/** The optional value the model uses wherever the source passes a value
    that may be absent (a null pointer, an empty `QVariant`, no message). */
module Optional {

  datatype Option<+T> = None | Some(value: T)
}

=== FILE: request_message.dfy ===
/** The request-message correlator (`Vehicle::_requestMessageInfoMap`).

    `requestMessage` sends MAV_CMD_REQUEST_MESSAGE and then waits for two
    things that may arrive in either order: the command's ack and the
    requested message itself. The bookkeeping entry for (component,
    message id) is retired, with exactly one completion for the caller, when
    the ack reports a failure, when both the ack and the message are in, or
    when the message does not show up within the message wait after the ack.

    The nested map compId -> msgId -> info of the source is flattened into
    one map keyed by the pair. */
module RequestMessage {
  import opened Optional
  import opened Mavlink
  import CommandList

  /** `Vehicle::RequestMessageResultHandlerFailureCode_t`. */
  datatype FailureCode =
    | NoFailure
    | FailureCommandError         // the ack reported a result other than ACCEPTED
    | FailureCommandNotAcked      // the command ran out of tries
    | FailureMessageNotReceived   // acked, but the message never came
    | FailureDuplicateCommand     // the same request (or command) is already outstanding

  /** `Vehicle::RequestMessageInfo_t`; `caller` stands for the result handler
      and its opaque data. `waitElapsedMSecs` is the message wait timer:
      `None` while it is not running. */
  datatype Info = Info(
    caller: nat,
    commandAckReceived: bool,
    messageReceived: bool,
    waitElapsedMSecs: Option<int>,
    message: Option<Message>)

  /** One call of the caller's result handler. On failure the message
      argument carries nothing, modelled as `None`. */
  datatype Completion = Completion(
    caller: nat, compId: int, msgId: int,
    commandResult: int, failure: FailureCode, message: Option<Message>)

  type Waiting = map<(int, int), Info>

  /** The two flags never both hold in a stored entry (that retires it), and
      the message wait timer runs exactly while the ack is in and the message
      is not. */
  predicate Consistent(info: Info) {
    && !(info.commandAckReceived && info.messageReceived)
    && (info.waitElapsedMSecs.Some? <==> info.commandAckReceived)
    && (info.waitElapsedMSecs.Some? ==> info.waitElapsedMSecs.value >= 0)
    && (info.messageReceived <==> info.message.Some?)
  }

  predicate AllConsistent(waiting: Waiting) {
    forall k | k in waiting :: Consistent(waiting[k])
  }

  function Fresh(caller: nat): Info {
    Info(caller, false, false, None, None)
  }

  /** The request a completion answers. */
  function KeyOf(c: Completion): (int, int) {
    (c.compId, c.msgId)
  }

  function CompletedKeys(done: multiset<Completion>): set<(int, int)> {
    set c | c in done :: KeyOf(c)
  }

  /** A completion that may or may not have happened, as a multiset. */
  function Delivered(c: Option<Completion>): multiset<Completion> {
    if c.Some? then multiset{c.value} else multiset{}
  }

  /** How requests leave the map: going from `before` to `after` with the
      completions `done`, the requests that left are exactly the completed
      ones, each completed once and to its own caller, and every request
      that stays keeps its caller. */
  predicate Retires(before: Waiting, after: Waiting, done: multiset<Completion>) {
    && before.Keys == after.Keys + CompletedKeys(done)
    && after.Keys !! CompletedKeys(done)
    && KeepsCallers(before, after)
    && CompletesOnce(before, done)
  }

  predicate KeepsCallers(before: Waiting, after: Waiting) {
    forall k | k in after :: k in before && after[k].caller == before[k].caller
  }

  /** Every completion answers a request of `before`, goes to its caller, and
      no request is answered twice. */
  predicate CompletesOnce(before: Waiting, done: multiset<Completion>) {
    && (forall c | c in done :: KeyOf(c) in before && done[c] == 1 && c.caller == before[KeyOf(c)].caller)
    && (forall c, d | c in done && d in done && KeyOf(c) == KeyOf(d) :: c == d)
  }

  /** Two retiring steps in a row retire, with the completions of both. */
  lemma RetiresTrans(a: Waiting, b: Waiting, c: Waiting, d1: multiset<Completion>, d2: multiset<Completion>)
    requires Retires(a, b, d1) && Retires(b, c, d2)
    ensures Retires(a, c, d1 + d2)
  {
    CompletedKeysJoin(a.Keys, b.Keys, c.Keys, d1, d2);
    CompletesOnceJoin(a, b, d1, d2);
  }

  lemma CompletedKeysJoin(a: set<(int, int)>, b: set<(int, int)>, c: set<(int, int)>,
                          d1: multiset<Completion>, d2: multiset<Completion>)
    requires a == b + CompletedKeys(d1) && b !! CompletedKeys(d1)
    requires b == c + CompletedKeys(d2) && c !! CompletedKeys(d2)
    ensures a == c + CompletedKeys(d1 + d2) && c !! CompletedKeys(d1 + d2)
  {
    assert CompletedKeys(d1 + d2) == CompletedKeys(d1) + CompletedKeys(d2);
  }

  lemma CompletesOnceJoin(a: Waiting, b: Waiting, d1: multiset<Completion>, d2: multiset<Completion>)
    requires CompletesOnce(a, d1) && CompletesOnce(b, d2) && KeepsCallers(a, b)
    requires b.Keys !! CompletedKeys(d1)
    ensures CompletesOnce(a, d1 + d2)
  {
    forall x | x in d1
      ensures x !in d2 && KeyOf(x) !in CompletedKeys(d2)
    {
      assert KeyOf(x) in CompletedKeys(d1);
    }
  }

  /** The first half of `requestMessage`: one outstanding request per
      (component, message id); a second one is refused at once. */
  function Register(waiting: Waiting, caller: nat, compId: int, msgId: int): (r: (Waiting, Option<Completion>))
    ensures (compId, msgId) in waiting ==>
              && r.0 == waiting
              && r.1 == Some(Completion(caller, compId, msgId, ResultFailed, FailureDuplicateCommand, None))
    ensures (compId, msgId) !in waiting ==>
              && r.1 == None
              && r.0.Keys == waiting.Keys + {(compId, msgId)}
              && r.0[(compId, msgId)] == Fresh(caller)
              && forall k | k in waiting :: r.0[k] == waiting[k]
    ensures AllConsistent(waiting) ==> AllConsistent(r.0)
  {
    if (compId, msgId) in waiting then
      (waiting, Some(Completion(caller, compId, msgId, ResultFailed, FailureDuplicateCommand, None)))
    else
      (waiting[(compId, msgId) := Fresh(caller)], None)
  }

  /** How a command-level failure code is reported to a request's caller. */
  function FromCommandFailure(code: CommandList.FailureCode): (f: FailureCode)
    ensures f != NoFailure && f != FailureMessageNotReceived
    ensures code.FailureDuplicateCommand? <==> f == FailureDuplicateCommand
    ensures code.FailureNoResponseToCommand? <==> f == FailureCommandNotAcked
  {
    match code
    case CommandResultOnly => FailureCommandError
    case FailureNoResponseToCommand => FailureCommandNotAcked
    case FailureDuplicateCommand => FailureDuplicateCommand
  }

  /** `_requestMessageCmdResultHandler`: the REQUEST_MESSAGE command has its
      result. Anything but ACCEPTED fails the request at once; ACCEPTED
      completes it if the message is already in, and otherwise starts the
      message wait. */
  function CommandResult(waiting: Waiting, compId: int, msgId: int, ackResult: int,
                         code: CommandList.FailureCode): (r: (Waiting, Option<Completion>))
    ensures var key := (compId, msgId);
      && (key !in waiting ==> r == (waiting, None))
      && (key in waiting ==>
            && (key !in r.0 <==> ackResult != ResultAccepted || waiting[key].messageReceived)
            && (key !in r.0 <==> r.1.Some?)
            && (r.1.Some? ==> r.1.value.caller == waiting[key].caller
                              && r.1.value.compId == compId && r.1.value.msgId == msgId)
            && (ackResult != ResultAccepted ==>
                  r.1 == Some(Completion(waiting[key].caller, compId, msgId, ackResult, FromCommandFailure(code), None)))
            && (ackResult == ResultAccepted && waiting[key].messageReceived ==>
                  r.1 == Some(Completion(waiting[key].caller, compId, msgId, ResultAccepted, NoFailure, waiting[key].message)))
            && (key in r.0 ==> r.0[key] == waiting[key].(commandAckReceived := true, waitElapsedMSecs := Some(0))))
    ensures forall k | k in r.0 && k != (compId, msgId) :: k in waiting && r.0[k] == waiting[k]
    ensures waiting.Keys - {(compId, msgId)} <= r.0.Keys <= waiting.Keys
    ensures Retires(waiting, r.0, Delivered(r.1))
    ensures AllConsistent(waiting) ==> AllConsistent(r.0)
  {
    var key := (compId, msgId);
    if key !in waiting then (waiting, None)
    else
      var info := waiting[key];
      if ackResult != ResultAccepted then
        (waiting - {key}, Some(Completion(info.caller, compId, msgId, ackResult, FromCommandFailure(code), None)))
      else if info.messageReceived then
        (waiting - {key}, Some(Completion(info.caller, compId, msgId, ResultAccepted, NoFailure, info.message)))
      else
        (waiting[key := info.(commandAckReceived := true, waitElapsedMSecs := Some(0))], None)
  }

  /** The result handler only looks at the request it is about. */
  lemma CommandResultLocal(w1: Waiting, w2: Waiting, compId: int, msgId: int, ackResult: int,
                           code: CommandList.FailureCode)
    requires (compId, msgId) in w1 <==> (compId, msgId) in w2
    requires (compId, msgId) in w1 ==> w1[(compId, msgId)] == w2[(compId, msgId)]
    ensures var c1, c2 := CommandResult(w1, compId, msgId, ackResult, code), CommandResult(w2, compId, msgId, ackResult, code);
            && c1.1 == c2.1
            && ((compId, msgId) in c1.0 <==> (compId, msgId) in c2.0)
            && ((compId, msgId) in c1.0 ==> c1.0[(compId, msgId)] == c2.0[(compId, msgId)])
  {
  }

  /** A message arrives. If a request waits for it, it is recorded; once the
      ack is in as well the request completes with this message. A message
      nobody asked for changes nothing here. */
  function MessageReceived(waiting: Waiting, msg: Message): (r: (Waiting, Option<Completion>))
    ensures var key := (msg.compId, msg.msgId);
      && (key !in waiting ==> r == (waiting, None))
      && (key in waiting ==>
            && (key !in r.0 <==> waiting[key].commandAckReceived)
            && (key !in r.0 <==> r.1.Some?)
            && (r.1.Some? ==> r.1.value == Completion(waiting[key].caller, msg.compId, msg.msgId,
                                                       ResultAccepted, NoFailure, Some(msg)))
            && (key in r.0 ==> r.0[key].messageReceived && r.0[key].message == Some(msg)))
    ensures forall k | k in r.0 && k != (msg.compId, msg.msgId) :: k in waiting && r.0[k] == waiting[k]
    ensures waiting.Keys - {(msg.compId, msg.msgId)} <= r.0.Keys <= waiting.Keys
    ensures Retires(waiting, r.0, Delivered(r.1))
    ensures AllConsistent(waiting) ==> AllConsistent(r.0)
  {
    var key := (msg.compId, msg.msgId);
    if key !in waiting then (waiting, None)
    else
      var info := waiting[key];
      if info.commandAckReceived then
        (waiting - {key}, Some(Completion(info.caller, msg.compId, msg.msgId, ResultAccepted, NoFailure, Some(msg))))
      else
        (waiting[key := info.(messageReceived := true, message := Some(msg))], None)
  }

  /** Let `dt` milliseconds pass on every running message wait timer. */
  function AdvanceWait(waiting: Waiting, dt: nat): (r: Waiting)
    ensures r.Keys == waiting.Keys
    ensures forall k | k in waiting ::
              && r[k].caller == waiting[k].caller
              && r[k].commandAckReceived == waiting[k].commandAckReceived
              && r[k].messageReceived == waiting[k].messageReceived
              && r[k].message == waiting[k].message
              && (waiting[k].waitElapsedMSecs.None? <==> r[k].waitElapsedMSecs.None?)
              && (waiting[k].waitElapsedMSecs.Some? ==>
                    r[k].waitElapsedMSecs.value == waiting[k].waitElapsedMSecs.value + dt)
    ensures Retires(waiting, r, multiset{})
    ensures AllConsistent(waiting) ==> AllConsistent(r)
  {
    assert CompletedKeys(multiset{}) == {};
    map k | k in waiting ::
      var info := waiting[k];
      match info.waitElapsedMSecs
      case None => info
      case Some(t) => info.(waitElapsedMSecs := Some(t + dt))
  }

  predicate WaitExpired(info: Info, timeoutMSecs: int) {
    info.waitElapsedMSecs.Some? && info.waitElapsedMSecs.value > timeoutMSecs
  }

  /** The message-wait check: every request whose message wait has run out
      completes with ACCEPTED and `FailureMessageNotReceived`; the others stay
      untouched. */
  function WaitTimeouts(waiting: Waiting, timeoutMSecs: int): (r: (Waiting, set<Completion>))
    ensures forall k | k in waiting :: k in r.0 <==> !WaitExpired(waiting[k], timeoutMSecs)
    ensures r.0.Keys <= waiting.Keys
    ensures forall k | k in r.0 :: r.0[k] == waiting[k]
    ensures forall c | c in r.1 :: (c.compId, c.msgId) in waiting && (c.compId, c.msgId) !in r.0
    ensures forall k | k in waiting && k !in r.0 ::
              Completion(waiting[k].caller, k.0, k.1, ResultAccepted, FailureMessageNotReceived, None) in r.1
    ensures forall c | c in r.1 ::
              && KeyOf(c) in waiting
              && c == Completion(waiting[KeyOf(c)].caller, c.compId, c.msgId, ResultAccepted, FailureMessageNotReceived, None)
    ensures Retires(waiting, r.0, multiset(r.1))
    ensures AllConsistent(waiting) ==> AllConsistent(r.0)
  {
    var kept := map k | k in waiting && !WaitExpired(waiting[k], timeoutMSecs) :: waiting[k];
    var done := set k | k in waiting && WaitExpired(waiting[k], timeoutMSecs) ::
                  Completion(waiting[k].caller, k.0, k.1, ResultAccepted, FailureMessageNotReceived, None);
    assert CompletedKeys(multiset(done)) == waiting.Keys - kept.Keys by {
      forall k | k in waiting.Keys - kept.Keys
        ensures k in CompletedKeys(multiset(done))
      {
        var c := Completion(waiting[k].caller, k.0, k.1, ResultAccepted, FailureMessageNotReceived, None);
        assert c in multiset(done);
      }
    }
    (kept, done)
  }

  /** Ack and message may come in either order: once a fresh request has
      both its ACCEPTED ack and its message, the outcome is the same. */
  lemma AckMessageOrderIrrelevant(waiting: Waiting, compId: int, msgId: int, msg: Message)
    requires (compId, msgId) in waiting
    requires !waiting[(compId, msgId)].commandAckReceived && !waiting[(compId, msgId)].messageReceived
    requires msg.compId == compId && msg.msgId == msgId
    ensures var a := CommandResult(waiting, compId, msgId, ResultAccepted, CommandList.CommandResultOnly);
            var ackFirst := MessageReceived(a.0, msg);
            var m := MessageReceived(waiting, msg);
            var msgFirst := CommandResult(m.0, compId, msgId, ResultAccepted, CommandList.CommandResultOnly);
            && a.1 == None && m.1 == None
            && ackFirst.0 == msgFirst.0 == waiting - {(compId, msgId)}
            && ackFirst.1 == msgFirst.1
            == Some(Completion(waiting[(compId, msgId)].caller, compId, msgId, ResultAccepted, NoFailure, Some(msg)))
  {
    var key := (compId, msgId);
    var info := waiting[key];
    var a := CommandResult(waiting, compId, msgId, ResultAccepted, CommandList.CommandResultOnly);
    assert a.0 == waiting[key := info.(commandAckReceived := true, waitElapsedMSecs := Some(0))];
    var ackFirst := MessageReceived(a.0, msg);
    assert a.0 - {key} == waiting - {key};
    var m := MessageReceived(waiting, msg);
    assert m.0 == waiting[key := info.(messageReceived := true, message := Some(msg))];
    assert m.0 - {key} == waiting - {key};
  }

  /** `n` response-check periods of 500 ms with no message and no ack. */
  function WaitRounds(waiting: Waiting, timeoutMSecs: int, n: nat): (r: (Waiting, set<Completion>))
    ensures r.0.Keys <= waiting.Keys
    decreases n
  {
    if n == 0 then (waiting, {})
    else
      var w := WaitTimeouts(AdvanceWait(waiting, 500), timeoutMSecs);
      var rest := WaitRounds(w.0, timeoutMSecs, n - 1);
      (rest.0, w.1 + rest.1)
  }

  /** Once the ack is in, the message wait is bounded: if the message never
      comes, the request is retired with `FailureMessageNotReceived` (and the
      ACCEPTED result) as soon as the wait has passed the timeout. */
  lemma {:induction false} AckedRequestExpires(waiting: Waiting, key: (int, int), timeoutMSecs: int, n: nat)
    requires key in waiting && waiting[key].waitElapsedMSecs.Some?
    requires n > 0 && waiting[key].waitElapsedMSecs.value + 500 * n > timeoutMSecs
    ensures key !in WaitRounds(waiting, timeoutMSecs, n).0
    ensures Completion(waiting[key].caller, key.0, key.1, ResultAccepted, FailureMessageNotReceived, None)
            in WaitRounds(waiting, timeoutMSecs, n).1
    decreases n
  {
    var w := WaitTimeouts(AdvanceWait(waiting, 500), timeoutMSecs);
    var rest := WaitRounds(w.0, timeoutMSecs, n - 1);
    assert WaitRounds(waiting, timeoutMSecs, n) == (rest.0, w.1 + rest.1);
    OneWaitRound(waiting, key, timeoutMSecs);
    if key in w.0 {
      assert 500 * n == 500 * (n - 1) + 500;
      AckedRequestExpires(w.0, key, timeoutMSecs, n - 1);
    }
  }

  /** What one period does to a request whose message wait is running. */
  lemma OneWaitRound(waiting: Waiting, key: (int, int), timeoutMSecs: int)
    requires key in waiting && waiting[key].waitElapsedMSecs.Some?
    ensures var w := WaitTimeouts(AdvanceWait(waiting, 500), timeoutMSecs);
            var t := waiting[key].waitElapsedMSecs.value + 500;
            && (t > timeoutMSecs ==>
                  && key !in w.0
                  && Completion(waiting[key].caller, key.0, key.1, ResultAccepted, FailureMessageNotReceived, None) in w.1)
            && (t <= timeoutMSecs ==>
                  key in w.0 && w.0[key] == waiting[key].(waitElapsedMSecs := Some(t)))
  {
    var adv := AdvanceWait(waiting, 500);
    assert adv[key] == waiting[key].(waitElapsedMSecs := Some(waiting[key].waitElapsedMSecs.value + 500));
  }
}

=== FILE: send_multiple.dfy ===
/** `Vehicle::sendMessageMultiple`: messages that are put on the link a
    fixed number of times, one send per timer period, round robin over the
    pending messages (`_sendMessageMultipleList`). */
module SendMultiple {
  import opened Optional
  import opened Mavlink

  const SendMessageMultipleRetries: int := 5

  /** `SendMessageMultipleInfo_t`: the message and the number of sends it
      still has to go. */
  datatype Pending = Pending(message: Message, retryCount: int)

  /** The list and `_nextSendMessageMultipleIndex`. */
  datatype Sender = Sender(list: seq<Pending>, next: int)

  predicate Valid(s: Sender) {
    && (forall p | p in s.list :: 1 <= p.retryCount <= SendMessageMultipleRetries)
    && 0 <= s.next
    && (s.next < |s.list| || s.next == 0)
  }

  /** `k` copies of `m` (none for `k <= 0`). */
  function Copies(m: Message, k: int): multiset<Message>
    decreases k
  {
    if k <= 0 then multiset{} else Copies(m, k - 1) + multiset{m}
  }

  /** The sends still owed: each pending message as many times as its
      retry count. */
  function Owed(list: seq<Pending>): multiset<Message>
    decreases |list|
  {
    if |list| == 0 then multiset{}
    else
      var p := list[|list| - 1];
      Owed(list[..|list| - 1]) + Copies(p.message, p.retryCount)
  }

  /** `sendMessageMultiple`: queue a message for five sends. */
  function Append(s: Sender, message: Message): (r: Sender)
    ensures Valid(s) ==> Valid(r)
    ensures r.list == s.list + [Pending(message, SendMessageMultipleRetries)]
    ensures Owed(r.list) == Owed(s.list) + Copies(message, SendMessageMultipleRetries)
  {
    var r := Sender(s.list + [Pending(message, SendMessageMultipleRetries)], s.next);
    assert r.list[..|r.list| - 1] == s.list;
    r
  }

  /** `_sendMessageMultipleNext`, one firing of the send timer. The message
      at the index is sent if the link is still there, and counts as one try
      either way; a message with no tries left is dropped, otherwise the
      index moves on. Past the end the index wraps to 0. */
  function SendNext(s: Sender, linkUp: bool): (r: (Sender, Option<Message>))
    ensures !(0 <= s.next < |s.list|) ==> r.0.list == s.list && r.1 == None
    ensures 0 <= s.next < |s.list| ==>
              && (linkUp <==> r.1.Some?)
              && (r.1.Some? ==> r.1.value == s.list[s.next].message)
              && |s.list| - 1 <= |r.0.list| <= |s.list|
  {
    var list := s.list;
    var i := s.next;
    if 0 <= i < |list| then
      var p := list[i];
      var sent := if linkUp then Some(p.message) else None;
      if p.retryCount - 1 <= 0 then
        var list' := list[..i] + list[i + 1..];
        (Sender(list', if i >= |list'| then 0 else i), sent)
      else
        var list' := list[i := p.(retryCount := p.retryCount - 1)];
        (Sender(list', if i + 1 >= |list'| then 0 else i + 1), sent)
    else
      (Sender(list, if i >= |list| then 0 else i), None)
  }

  /** Every firing keeps retry counts within 1..5 and the index in range. */
  lemma SendNextKeepsValid(s: Sender, linkUp: bool)
    requires Valid(s)
    ensures Valid(SendNext(s, linkUp).0)
  {
    var list := s.list;
    var i := s.next;
    if i < |list| {
      var p := list[i];
      if p.retryCount - 1 <= 0 {
        var list' := list[..i] + list[i + 1..];
        assert forall q | q in list' :: q in list;
      } else {
        var p' := p.(retryCount := p.retryCount - 1);
        var list' := list[i := p'];
        assert forall q | q in list' :: q in list || q == p';
      }
    }
  }

  /** Every firing on a non-empty list pays off exactly one owed send: the
      one of the message at the index. */
  lemma SendNextPaysOne(s: Sender, linkUp: bool)
    requires Valid(s) && |s.list| > 0
    ensures Owed(SendNext(s, linkUp).0.list) + multiset{s.list[s.next].message} == Owed(s.list)
    ensures |Owed(SendNext(s, linkUp).0.list)| == |Owed(s.list)| - 1
  {
    var i := s.next;
    var p := s.list[i];
    var a := s.list[..i];
    var b := s.list[i + 1..];
    assert s.list == a + [p] + b;
    var list' := SendNext(s, linkUp).0.list;
    if p.retryCount - 1 <= 0 {
      assert list' == a + b;
      OwedDrop(a, p, b);
    } else {
      assert list' == a + [p.(retryCount := p.retryCount - 1)] + b;
      OwedDecrement(a, p, b);
    }
  }

  /** Dropping an entry with one send left pays that send. */
  lemma OwedDrop(a: seq<Pending>, p: Pending, b: seq<Pending>)
    requires p.retryCount == 1
    ensures Owed(a + b) + multiset{p.message} == Owed(a + [p] + b)
  {
    OwedAround(a, p, b);
    OwedJoin(a, b);
  }

  /** Counting one send off an entry pays that send. */
  lemma OwedDecrement(a: seq<Pending>, p: Pending, b: seq<Pending>)
    requires p.retryCount >= 2
    ensures Owed(a + [p.(retryCount := p.retryCount - 1)] + b) + multiset{p.message} == Owed(a + [p] + b)
  {
    OwedAround(a, p, b);
    OwedAround(a, p.(retryCount := p.retryCount - 1), b);
  }

  /** The sends owed by a list, split around one of its entries. */
  lemma OwedAround(a: seq<Pending>, p: Pending, b: seq<Pending>)
    ensures Owed(a + [p] + b) == Owed(a) + Copies(p.message, p.retryCount) + Owed(b)
  {
    OwedJoin(a, [p]);
    OwedJoin(a + [p], b);
    assert [p][..0] == [];
  }

  lemma {:induction false} OwedJoin(a: seq<Pending>, b: seq<Pending>)
    ensures Owed(a + b) == Owed(a) + Owed(b)
    decreases |b|
  {
    if |b| == 0 {
      assert a + b == a;
    } else {
      var b' := b[..|b| - 1];
      assert (a + b)[..|a + b| - 1] == a + b';
      OwedJoin(a, b');
    }
  }

  /** `n` firings of the send timer with the link up; the messages sent, in
      order. */
  function SendRounds(s: Sender, n: nat): (r: (Sender, seq<Message>))
    ensures |r.1| <= n
    decreases n
  {
    if n == 0 then (s, [])
    else
      var step := SendNext(s, true);
      var rest := SendRounds(step.0, n - 1);
      (rest.0, (if step.1.Some? then [step.1.value] else []) + rest.1)
  }

  /** A non-empty list owes at least one send per message. */
  lemma {:induction false} OwedSize(list: seq<Pending>)
    requires forall p | p in list :: 1 <= p.retryCount
    ensures |Owed(list)| >= |list|
    decreases |list|
  {
    if |list| > 0 {
      var init := list[..|list| - 1];
      var p := list[|list| - 1];
      assert forall q | q in init :: q in list;
      OwedSize(init);
      assert p in list;
      assert |Copies(p.message, p.retryCount)| >= 1;
    }
  }

  /** Every queued message goes out exactly as many times as it is owed:
      after as many timer firings as there are sends owed, with the link up,
      the list is empty and the messages sent are exactly the owed ones. In
      particular a message passed to `sendMessageMultiple` is sent exactly
      five times. */
  lemma {:induction false} AllOwedSendsHappen(s: Sender, n: nat)
    requires Valid(s) && n == |Owed(s.list)|
    ensures SendRounds(s, n).0.list == []
    ensures multiset(SendRounds(s, n).1) == Owed(s.list)
    decreases n
  {
    if n > 0 {
      OwedNonEmpty(s);
      var m := s.list[s.next].message;
      var next := SendNext(s, true).0;
      SendNextKeepsValid(s, true);
      SendNextPaysOne(s, true);
      AllOwedSendsHappen(next, n - 1);
      SendRoundsUnfold(s, n);
      Assemble(m, SendRounds(next, n - 1).1, Owed(next.list), Owed(s.list));
    }
  }

  /** A sender that still owes sends has its index on a message. */
  lemma OwedNonEmpty(s: Sender)
    requires Valid(s) && |Owed(s.list)| > 0
    ensures 0 <= s.next < |s.list|
  {
    OwedSize(s.list);
  }

  /** One firing, then the rest. */
  lemma SendRoundsUnfold(s: Sender, n: nat)
    requires 0 <= s.next < |s.list| && n > 0
    ensures SendRounds(s, n) == (SendRounds(SendNext(s, true).0, n - 1).0,
                                 [s.list[s.next].message] + SendRounds(SendNext(s, true).0, n - 1).1)
  {
  }

  lemma Assemble(m: Message, rest: seq<Message>, owedNext: multiset<Message>, owed: multiset<Message>)
    requires multiset(rest) == owedNext && owedNext + multiset{m} == owed
    ensures multiset([m] + rest) == owed
  {
    assert multiset([m] + rest) == multiset{m} + multiset(rest);
  }
}

=== FILE: vehicle_commands.dfy ===
/** The vehicle's command layer as one state machine: the command list and
    the request-message correlator side by side, with the correlator's
    REQUEST_MESSAGE commands travelling through the command list and their
    results routed back to it.

    Every event returns the new state and an `Outcome`: the notices meant for
    ordinary command callers (link sends, progress, results) and the
    completions delivered to `requestMessage` callers. */
module VehicleCommands {
  import opened Optional
  import opened Mavlink
  import CL = CommandList
  import RM = RequestMessage

  datatype Vehicle = Vehicle(commands: seq<CL.Entry>, requests: RM.Waiting)

  datatype Outcome = Outcome(notices: seq<CL.Notice>, completions: multiset<RM.Completion>)

  /** The layer's invariant between events. */
  predicate Valid(v: Vehicle, policy: CL.Policy) {
    CL.Valid(v.commands, policy) && RM.AllConsistent(v.requests)
  }

  /** A notice addressed to the correlator's own result handler. */
  predicate ForRequest(n: CL.Notice) {
    (n.Progress? || n.Result?) && n.handler.RequestMessageInfo?
  }

  /** The notices meant for ordinary callers: every notice not addressed to
      the correlator, in order and with repeats. */
  function Passed(notices: seq<CL.Notice>): seq<CL.Notice>
    decreases |notices|
  {
    if |notices| == 0 then []
    else (if ForRequest(notices[0]) then [] else [notices[0]]) + Passed(notices[1..])
  }

  /** Passing on only drops notices. */
  lemma {:induction false} PassedWithin(notices: seq<CL.Notice>)
    ensures forall x | x in Passed(notices) :: x in notices && !ForRequest(x)
    decreases |notices|
  {
    if |notices| > 0 {
      PassedWithin(notices[1..]);
      assert forall x | x in notices[1..] :: x in notices;
    }
  }

  lemma {:induction false} PassedAppend(a: seq<CL.Notice>, b: seq<CL.Notice>)
    ensures Passed(a + b) == Passed(a) + Passed(b)
    decreases |a|
  {
    if |a| > 0 {
      assert (a + b)[0] == a[0] && (a + b)[1..] == a[1..] + b;
      PassedAppend(a[1..], b);
    } else {
      assert a + b == b;
    }
  }

  /** Hand the command list's notices out: results of REQUEST_MESSAGE
      commands go to `_requestMessageCmdResultHandler`, which registers no
      progress handler, so its progress notices are dropped; all other
      notices pass through in order. */
  function Route(requests: RM.Waiting, notices: seq<CL.Notice>): (r: (RM.Waiting, seq<CL.Notice>, multiset<RM.Completion>))
    ensures r.0.Keys <= requests.Keys
    ensures RM.AllConsistent(requests) ==> RM.AllConsistent(r.0)
    ensures r.1 == Passed(notices)
    ensures forall n | n in r.1 :: n in notices && !ForRequest(n)
    ensures forall n | n in notices && !ForRequest(n) :: n in r.1
    ensures |r.2| <= |notices| - |r.1|
    ensures (forall n | n in notices :: !ForRequest(n)) ==> r == (requests, notices, multiset{})
    ensures RM.Retires(requests, r.0, r.2)
    decreases |notices|
  {
    if |notices| == 0 then
      assert RM.CompletedKeys(multiset{}) == {};
      (requests, [], multiset{})
    else
      var n := notices[0];
      assert forall m | m in notices[1..] :: m in notices;
      if ForRequest(n) then
        var c := Settle(requests, n);
        var rest := Route(c.0, notices[1..]);
        assert Passed(notices) == Passed(notices[1..]);
        RM.RetiresTrans(requests, c.0, rest.0, c.1, rest.2);
        (rest.0, rest.1, c.1 + rest.2)
      else
        var rest := Route(requests, notices[1..]);
        assert notices == [n] + notices[1..];
        assert Passed(notices) == [n] + Passed(notices[1..]);
        (rest.0, [n] + rest.1, rest.2)
  }

  /** What the correlator does with one notice addressed to it. */
  function Settle(requests: RM.Waiting, n: CL.Notice): (r: (RM.Waiting, multiset<RM.Completion>))
    requires ForRequest(n)
    ensures RM.Retires(requests, r.0, r.1)
    ensures |r.1| <= 1
    ensures n.Progress? ==> r == (requests, multiset{})
  {
    if n.Result? then
      var c := RM.CommandResult(requests, n.handler.compId, n.handler.msgId, n.ackResult, n.failure);
      (c.0, RM.Delivered(c.1))
    else
      assert RM.CompletedKeys(multiset{}) == {};
      (requests, multiset{})
  }

  /** `sendMavCommand` and its variants: submit to the command list. */
  function SendCommand(v: Vehicle, policy: CL.Policy, highLatency: bool, req: CL.Request): (r: (Vehicle, Outcome))
    ensures !req.handler.RequestMessageInfo? ==>
              && r.0.requests == v.requests
              && r.0.commands == CL.Submit(v.commands, policy, highLatency, req).0
              && r.1 == Outcome(CL.Submit(v.commands, policy, highLatency, req).1, multiset{})
    ensures CL.IsPending(r.0.commands, req.compId, req.command)
    ensures RM.Retires(v.requests, r.0.requests, r.1.completions)
  {
    var s := CL.Submit(v.commands, policy, highLatency, req);
    CL.SubmitKeeps(v.commands, policy, highLatency, req);
    assert !req.handler.RequestMessageInfo? ==> forall n | n in s.1 :: !ForRequest(n);
    var rt := Route(v.requests, s.1);
    (Vehicle(s.0, rt.0), Outcome(rt.1, rt.2))
  }

  lemma SendCommandKeepsValid(v: Vehicle, policy: CL.Policy, highLatency: bool, req: CL.Request)
    requires Valid(v, policy)
    ensures Valid(SendCommand(v, policy, highLatency, req).0, policy)
  {
    CL.SubmitKeeps(v.commands, policy, highLatency, req);
  }

  /** The REQUEST_MESSAGE command that `requestMessage` submits: the message
      id goes in param1, the caller's parameters follow, no error alert. */
  function RequestCommand(compId: int, msgId: int, params: seq<real>): CL.Request {
    CL.Request(compId, CmdRequestMessage, false, 0, [msgId as real] + params, false,
               CL.RequestMessageInfo(compId, msgId))
  }

  /** `requestMessage`: register the request, then submit its command. */
  function RequestMessage(v: Vehicle, policy: CL.Policy, highLatency: bool, caller: nat,
                          compId: int, msgId: int, params: seq<real>): (r: (Vehicle, Outcome))
    ensures |r.1.completions| <= 1
  {
    var reg := RM.Register(v.requests, caller, compId, msgId);
    if reg.1.Some? then (v, Outcome([], multiset{reg.1.value}))
    else
      var req := RequestCommand(compId, msgId, params);
      var s := CL.Submit(v.commands, policy, highLatency, req);
      CL.SubmitKeeps(v.commands, policy, highLatency, req);
      var rt := Route(reg.0, s.1);
      (Vehicle(s.0, rt.0), Outcome(rt.1, rt.2))
  }

  lemma RequestMessageKeepsValid(v: Vehicle, policy: CL.Policy, highLatency: bool, caller: nat,
                                 compId: int, msgId: int, params: seq<real>)
    requires Valid(v, policy)
    ensures Valid(RequestMessage(v, policy, highLatency, caller, compId, msgId, params).0, policy)
  {
    CL.SubmitKeeps(v.commands, policy, highLatency, RequestCommand(compId, msgId, params));
  }

  /** A COMMAND_ACK arrives. */
  function ReceiveAck(v: Vehicle, policy: CL.Policy, compId: int, command: int, ackResult: int): (r: (Vehicle, Outcome))
    ensures !CL.IsPending(v.commands, compId, command) ==> r == (v, Outcome([], multiset{}))
    ensures |r.1.notices| + |r.1.completions| <= 1
    ensures r.0.commands == CL.HandleAck(v.commands, compId, command, ackResult).0
    ensures RM.Retires(v.requests, r.0.requests, r.1.completions)
    // an ordinary command's ack reaches its caller exactly as the command
    // list reports it
    ensures var i := CL.FindEntryIndex(v.commands, compId, command);
            0 <= i && !v.commands[i].handler.RequestMessageInfo? ==>
              && r.0.requests == v.requests
              && r.1 == Outcome(CL.HandleAck(v.commands, compId, command, ackResult).1, multiset{})
    // a REQUEST_MESSAGE's ack goes to the correlator only: progress is
    // dropped and a result is handled as the correlator's result handler does
    ensures var i := CL.FindEntryIndex(v.commands, compId, command);
            0 <= i && v.commands[i].handler.RequestMessageInfo? ==>
              var h := v.commands[i].handler;
              var c := RM.CommandResult(v.requests, h.compId, h.msgId, ackResult, CL.CommandResultOnly);
              && r.1.notices == []
              && (ackResult == ResultInProgress ==> r.0.requests == v.requests && r.1.completions == multiset{})
              && (ackResult != ResultInProgress ==> r.0.requests == c.0 && r.1.completions == RM.Delivered(c.1))
  {
    var h := CL.HandleAck(v.commands, compId, command, ackResult);
    var rt := Route(v.requests, h.1);
    if CL.FindEntryIndex(v.commands, compId, command) == -1 then
      (Vehicle(h.0, rt.0), Outcome(rt.1, rt.2))
    else
      RouteOne(v.requests, h.1[0]);
      (Vehicle(h.0, rt.0), Outcome(rt.1, rt.2))
  }

  lemma ReceiveAckKeepsValid(v: Vehicle, policy: CL.Policy, compId: int, command: int, ackResult: int)
    requires Valid(v, policy)
    ensures Valid(ReceiveAck(v, policy, compId, command, ackResult).0, policy)
  {
    CL.HandleAckKeeps(v.commands, policy, compId, command, ackResult);
  }

  /** Any other message arrives; it is offered to the correlator and stays
      visible to everybody else, so nothing is passed on here. */
  function ReceiveMessage(v: Vehicle, msg: Message): (r: (Vehicle, Outcome))
    ensures r.0.commands == v.commands
    ensures (msg.compId, msg.msgId) !in v.requests ==> r == (v, Outcome([], multiset{}))
    ensures r.1.notices == [] && |r.1.completions| <= 1
    ensures r.0.requests == RM.MessageReceived(v.requests, msg).0
    ensures r.1.completions == RM.Delivered(RM.MessageReceived(v.requests, msg).1)
    ensures RM.Retires(v.requests, r.0.requests, r.1.completions)
    ensures RM.AllConsistent(v.requests) ==> RM.AllConsistent(r.0.requests)
  {
    var m := RM.MessageReceived(v.requests, msg);
    (Vehicle(v.commands, m.0), Outcome([], RM.Delivered(m.1)))
  }

  /** One response-check period of 500 ms: the command list's check, then
      the message waits, which expire after `waitTimeoutMSecs`. */
  function Tick(v: Vehicle, policy: CL.Policy, waitTimeoutMSecs: int): (r: (Vehicle, Outcome))
    requires CL.Stored(v.commands, policy)
    ensures r.0.commands == CL.Survivors(CL.Advance(v.commands, CL.ResponseCheckTimeoutMSecs))
    ensures CL.Stored(r.0.commands, policy)
    ensures Valid(v, policy) ==> Valid(r.0, policy)
    // ordinary callers hear the command list's notices, less the correlator's
    ensures r.1.notices == Passed(CL.Tick(v.commands, policy).1)
    // every request that leaves completes once, to its own caller
    ensures RM.Retires(v.requests, r.0.requests, r.1.completions)
  {
    var t := CL.Tick(v.commands, policy);
    var rt := Route(v.requests, t.1);
    var adv := RM.AdvanceWait(rt.0, 500);
    var w := RM.WaitTimeouts(adv, waitTimeoutMSecs);
    RM.RetiresTrans(rt.0, adv, w.0, multiset{}, multiset(w.1));
    assert multiset{} + multiset(w.1) == multiset(w.1);
    RM.RetiresTrans(v.requests, rt.0, w.0, rt.2, multiset(w.1));
    (Vehicle(t.0, w.0), Outcome(rt.1, rt.2 + multiset(w.1)))
  }

  // ----- a request whose command is never acked -----

  /** The command results `Route` hands to the request `key`, in order. */
  function ResultsFor(notices: seq<CL.Notice>, key: (int, int)): (rs: seq<CL.Notice>)
    ensures forall n | n in rs :: n in notices && n.Result? && n.handler == CL.RequestMessageInfo(key.0, key.1)
    decreases |notices|
  {
    if |notices| == 0 then []
    else
      var n := notices[0];
      assert forall m | m in notices[1..] :: m in notices;
      (if n.Result? && n.handler == CL.RequestMessageInfo(key.0, key.1) then [n] else [])
      + ResultsFor(notices[1..], key)
  }

  /** What routing does to one request: nothing when no result is addressed
      to it, and exactly what the correlator's result handler does with the
      one result that is. */
  lemma RouteAt(requests: RM.Waiting, notices: seq<CL.Notice>, key: (int, int))
    ensures var r := Route(requests, notices);
            ResultsFor(notices, key) == [] ==>
              && (key in r.0 <==> key in requests)
              && (key in r.0 ==> r.0[key] == requests[key])
    ensures var r := Route(requests, notices);
            |ResultsFor(notices, key)| == 1 ==>
              var n := ResultsFor(notices, key)[0];
              var c := RM.CommandResult(requests, key.0, key.1, n.ackResult, n.failure);
              && (key in r.0 <==> key in c.0)
              && (key in r.0 ==> r.0[key] == c.0[key])
              && (c.1.Some? ==> c.1.value in r.2)
  {
    if ResultsFor(notices, key) == [] {
      RouteUntouched(requests, notices, key);
    } else if |ResultsFor(notices, key)| == 1 {
      RouteSettles(requests, notices, key);
    }
  }

  lemma {:induction false} RouteUntouched(requests: RM.Waiting, notices: seq<CL.Notice>, key: (int, int))
    requires ResultsFor(notices, key) == []
    ensures var r := Route(requests, notices);
            && (key in r.0 <==> key in requests)
            && (key in r.0 ==> r.0[key] == requests[key])
    decreases |notices|
  {
    if |notices| > 0 {
      var n := notices[0];
      var rest := notices[1..];
      assert ResultsFor(rest, key) == [];
      if ForRequest(n) {
        RouteUntouched(Settle(requests, n).0, rest, key);
      } else {
        RouteUntouched(requests, rest, key);
      }
    }
  }

  lemma {:induction false} RouteSettles(requests: RM.Waiting, notices: seq<CL.Notice>, key: (int, int))
    requires |ResultsFor(notices, key)| == 1
    ensures var r := Route(requests, notices);
            var n := ResultsFor(notices, key)[0];
            var c := RM.CommandResult(requests, key.0, key.1, n.ackResult, n.failure);
            && (key in r.0 <==> key in c.0)
            && (key in r.0 ==> r.0[key] == c.0[key])
            && (c.1.Some? ==> c.1.value in r.2)
    decreases |notices|, 1
  {
    var n, rest := notices[0], notices[1..];
    if n.Result? && n.handler == CL.RequestMessageInfo(key.0, key.1) {
      assert ResultsFor(notices, key) == [n] + ResultsFor(rest, key);
      SettledHere(requests, notices, key);
    } else {
      assert ResultsFor(notices, key) == ResultsFor(rest, key);
      var m := ResultsFor(rest, key)[0];
      if ForRequest(n) {
        SettledLater(requests, notices, key);
      } else {
        var r := Route(requests, rest);
        assert Route(requests, notices) == (r.0, [n] + r.1, r.2);
        RouteSettles(requests, rest, key);
      }
    }
  }

  /** The first notice is addressed to another request. */
  lemma {:induction false} SettledLater(requests: RM.Waiting, notices: seq<CL.Notice>, key: (int, int))
    requires |notices| > 0 && ForRequest(notices[0])
    requires !(notices[0].Result? && notices[0].handler == CL.RequestMessageInfo(key.0, key.1))
    requires |ResultsFor(notices[1..], key)| == 1
    ensures var r := Route(requests, notices);
            var m := ResultsFor(notices[1..], key)[0];
            var c := RM.CommandResult(requests, key.0, key.1, m.ackResult, m.failure);
            && (key in r.0 <==> key in c.0)
            && (key in r.0 ==> r.0[key] == c.0[key])
            && (c.1.Some? ==> c.1.value in r.2)
    decreases |notices|, 0
  {
    var n := notices[0];
    var m := ResultsFor(notices[1..], key)[0];
    var c := Settle(requests, n);
    var rest := Route(c.0, notices[1..]);
    assert Route(requests, notices) == (rest.0, rest.1, c.1 + rest.2);
    assert (key in c.0 <==> key in requests) && (key in c.0 ==> c.0[key] == requests[key]);
    RouteSettles(c.0, notices[1..], key);
    RM.CommandResultLocal(c.0, requests, key.0, key.1, m.ackResult, m.failure);
  }

  /** The first notice is the one result addressed to the request. */
  lemma SettledHere(requests: RM.Waiting, notices: seq<CL.Notice>, key: (int, int))
    requires |notices| > 0 && notices[0].Result? && notices[0].handler == CL.RequestMessageInfo(key.0, key.1)
    requires ResultsFor(notices[1..], key) == []
    ensures var r := Route(requests, notices);
            var c := RM.CommandResult(requests, key.0, key.1, notices[0].ackResult, notices[0].failure);
            && (key in r.0 <==> key in c.0)
            && (key in r.0 ==> r.0[key] == c.0[key])
            && (c.1.Some? ==> c.1.value in r.2)
  {
    var c := Settle(requests, notices[0]);
    var rest := Route(c.0, notices[1..]);
    assert Route(requests, notices) == (rest.0, rest.1, c.1 + rest.2);
    RouteUntouched(c.0, notices[1..], key);
  }

  /** `n` response-check periods with no ack and no message in between. */
  function Ticks(v: Vehicle, policy: CL.Policy, waitTimeoutMSecs: int, n: nat): (r: (Vehicle, Outcome))
    requires CL.Stored(v.commands, policy)
    ensures r.0.commands == CL.Remaining(v.commands, n)
    ensures r.1.notices == Passed(CL.TickN(v.commands, policy, n).1)
    ensures RM.Retires(v.requests, r.0.requests, r.1.completions)
    decreases n
  {
    if n == 0 then
      assert RM.CompletedKeys(multiset{}) == {};
      (v, Outcome([], multiset{}))
    else
      var t := Tick(v, policy, waitTimeoutMSecs);
      var rest := Ticks(t.0, policy, waitTimeoutMSecs, n - 1);
      var ct := CL.Tick(v.commands, policy);
      PassedAppend(ct.1, CL.TickN(ct.0, policy, n - 1).1);
      RM.RetiresTrans(v.requests, t.0.requests, rest.0.requests, t.1.completions, rest.1.completions);
      (rest.0, Outcome(t.1.notices + rest.1.notices, t.1.completions + rest.1.completions))
  }

  /** One period followed by `m` more is `m + 1` periods. */
  lemma TicksUnfold(v: Vehicle, policy: CL.Policy, waitTimeoutMSecs: int, m: nat)
    requires CL.Stored(v.commands, policy)
    ensures var t := Tick(v, policy, waitTimeoutMSecs);
            var rest := Ticks(t.0, policy, waitTimeoutMSecs, m);
            Ticks(v, policy, waitTimeoutMSecs, m + 1)
            == (rest.0, Outcome(t.1.notices + rest.1.notices, t.1.completions + rest.1.completions))
  {
  }

  /** The command list holds `count` REQUEST_MESSAGE entries for the request
      `key`, and no other entry reports to that request. */
  predicate Carries(commands: seq<CL.Entry>, key: (int, int), count: nat) {
    var h := CL.RequestMessageInfo(key.0, key.1);
    && CL.Tags(commands)[CL.Tag(key.0, CmdRequestMessage, h, true)] == count
    && forall t | t in CL.Tags(commands) && t.2 == h :: t == CL.Tag(key.0, CmdRequestMessage, h, true)
  }

  /** The request is registered as `info`, its ack has not come in (its
      message may have), and its command is still waiting for that ack. */
  predicate Unacked(v: Vehicle, key: (int, int), info: RM.Info) {
    && key in v.requests && v.requests[key] == info
    && !info.commandAckReceived && info.waitElapsedMSecs.None?
    && Carries(v.commands, key, 1)
  }

  /** Neither the request nor its command is left. */
  predicate Gone(v: Vehicle, key: (int, int)) {
    key !in v.requests && Carries(v.commands, key, 0)
  }

  predicate NoneFor(done: multiset<RM.Completion>, key: (int, int)) {
    forall c | c in done :: RM.KeyOf(c) != key
  }

  lemma NoneForJoin(a: multiset<RM.Completion>, b: multiset<RM.Completion>, key: (int, int))
    requires NoneFor(a, key) && NoneFor(b, key)
    ensures NoneFor(a + b, key)
  {
  }

  function NotAcked(caller: nat, key: (int, int)): RM.Completion {
    RM.Completion(caller, key.0, key.1, ResultFailed, RM.FailureCommandNotAcked, None)
  }

  /** When no other entry reports to the request, the results routed to it
      are the retirements of its own command. */
  lemma {:induction false} ResultsForCount(notices: seq<CL.Notice>, key: (int, int))
    requires var h := CL.RequestMessageInfo(key.0, key.1);
             forall t | t in CL.ResultTags(notices) && t.2 == h :: t == CL.Tag(key.0, CmdRequestMessage, h, true)
    ensures |ResultsFor(notices, key)|
            == CL.ResultTags(notices)[CL.Tag(key.0, CmdRequestMessage, CL.RequestMessageInfo(key.0, key.1), true)]
    decreases |notices|
  {
    if |notices| > 0 {
      var n := notices[0];
      var h := CL.RequestMessageInfo(key.0, key.1);
      var head: multiset<(int, int, CL.Handler)> :=
        if n.Result? then multiset{CL.Tag(n.compId, n.command, n.handler, true)} else multiset{};
      assert CL.ResultTags(notices) == head + CL.ResultTags(notices[1..]);
      ResultsForCount(notices[1..], key);
    }
  }

  /** One period of the command list alone: the request's entry leaves only
      as a result addressed to the request, and such a result reports an
      unanswered command. */
  lemma TickCarries(commands: seq<CL.Entry>, policy: CL.Policy, key: (int, int), count: nat)
    requires CL.Stored(commands, policy)
    requires Carries(commands, key, count)
    ensures var t := CL.Tick(commands, policy);
            var rs := ResultsFor(t.1, key);
            && |rs| <= count
            && Carries(t.0, key, count - |rs|)
            && forall n | n in rs :: n.ackResult == ResultFailed && n.failure == CL.FailureNoResponseToCommand
  {
    var t := CL.Tick(commands, policy);
    assert CL.Tags(commands) == CL.Tags(t.0) + CL.ResultTags(t.1);
    ResultsForCount(t.1, key);
  }

  /** One period of the whole layer for an unacked or finished request. */
  lemma TickStep(v: Vehicle, policy: CL.Policy, waitTimeoutMSecs: int, key: (int, int), info: RM.Info)
    requires CL.Stored(v.commands, policy)
    requires Unacked(v, key, info) || Gone(v, key)
    ensures var t := Tick(v, policy, waitTimeoutMSecs);
            Unacked(v, key, info) ==>
              || (Unacked(t.0, key, info) && NoneFor(t.1.completions, key))
              || (Gone(t.0, key) && NotAcked(info.caller, key) in t.1.completions)
    ensures var t := Tick(v, policy, waitTimeoutMSecs);
            Gone(v, key) ==> Gone(t.0, key) && NoneFor(t.1.completions, key)
  {
    if Unacked(v, key, info) {
      TickUnacked(v, policy, waitTimeoutMSecs, key, info);
    } else {
      TickGone(v, policy, waitTimeoutMSecs, key);
    }
  }

  lemma TickUnacked(v: Vehicle, policy: CL.Policy, waitTimeoutMSecs: int, key: (int, int), info: RM.Info)
    requires CL.Stored(v.commands, policy)
    requires Unacked(v, key, info)
    ensures var t := Tick(v, policy, waitTimeoutMSecs);
            || (Unacked(t.0, key, info) && NoneFor(t.1.completions, key))
            || (Gone(t.0, key) && NotAcked(info.caller, key) in t.1.completions)
  {
    var ct := CL.Tick(v.commands, policy);
    TickCarries(v.commands, policy, key, 1);
    if ResultsFor(ct.1, key) == [] {
      TickQuiet(v, policy, waitTimeoutMSecs, key, info);
    } else {
      TickRetires(v, policy, waitTimeoutMSecs, key, info);
    }
  }

  /** The case of `TickUnacked` where the command list keeps the entry. */
  lemma TickQuiet(v: Vehicle, policy: CL.Policy, waitTimeoutMSecs: int, key: (int, int), info: RM.Info)
    requires CL.Stored(v.commands, policy)
    requires Unacked(v, key, info)
    requires ResultsFor(CL.Tick(v.commands, policy).1, key) == []
    requires Carries(CL.Tick(v.commands, policy).0, key, 1)
    ensures var t := Tick(v, policy, waitTimeoutMSecs);
            Unacked(t.0, key, info) && NoneFor(t.1.completions, key)
  {
    var ct := CL.Tick(v.commands, policy);
    var rt := Route(v.requests, ct.1);
    var w := RM.WaitTimeouts(RM.AdvanceWait(rt.0, 500), waitTimeoutMSecs);
    var t := Tick(v, policy, waitTimeoutMSecs);
    assert t.0 == Vehicle(ct.0, w.0) && t.1.completions == rt.2 + multiset(w.1);
    RouteAt(v.requests, ct.1, key);
    WaitKeeps(rt.0, key, info, waitTimeoutMSecs);
    assert key !in RM.CompletedKeys(rt.2);
  }

  /** The case of `TickUnacked` where the command list gives the entry up. */
  lemma TickRetires(v: Vehicle, policy: CL.Policy, waitTimeoutMSecs: int, key: (int, int), info: RM.Info)
    requires CL.Stored(v.commands, policy)
    requires Unacked(v, key, info)
    requires var rs := ResultsFor(CL.Tick(v.commands, policy).1, key);
             && |rs| == 1
             && rs[0].ackResult == ResultFailed && rs[0].failure == CL.FailureNoResponseToCommand
    requires Carries(CL.Tick(v.commands, policy).0, key, 0)
    ensures var t := Tick(v, policy, waitTimeoutMSecs);
            Gone(t.0, key) && NotAcked(info.caller, key) in t.1.completions
  {
    var ct := CL.Tick(v.commands, policy);
    var rt := Route(v.requests, ct.1);
    var w := RM.WaitTimeouts(RM.AdvanceWait(rt.0, 500), waitTimeoutMSecs);
    var t := Tick(v, policy, waitTimeoutMSecs);
    assert t.0 == Vehicle(ct.0, w.0) && t.1.completions == rt.2 + multiset(w.1);
    RouteAt(v.requests, ct.1, key);
    WaitAbsent(rt.0, key, waitTimeoutMSecs);
  }

  lemma TickGone(v: Vehicle, policy: CL.Policy, waitTimeoutMSecs: int, key: (int, int))
    requires CL.Stored(v.commands, policy)
    requires Gone(v, key)
    ensures var t := Tick(v, policy, waitTimeoutMSecs);
            Gone(t.0, key) && NoneFor(t.1.completions, key)
  {
    var ct := CL.Tick(v.commands, policy);
    var rt := Route(v.requests, ct.1);
    var w := RM.WaitTimeouts(RM.AdvanceWait(rt.0, 500), waitTimeoutMSecs);
    var t := Tick(v, policy, waitTimeoutMSecs);
    assert t.0 == Vehicle(ct.0, w.0) && t.1.completions == rt.2 + multiset(w.1);
    TickCarries(v.commands, policy, key, 0);
    WaitAbsent(rt.0, key, waitTimeoutMSecs);
    assert key !in RM.CompletedKeys(rt.2);
  }

  /** A request whose message wait is not running is not touched by the
      message waits. */
  lemma WaitKeeps(requests: RM.Waiting, key: (int, int), info: RM.Info, waitTimeoutMSecs: int)
    requires key in requests && requests[key] == info && info.waitElapsedMSecs.None?
    ensures var w := RM.WaitTimeouts(RM.AdvanceWait(requests, 500), waitTimeoutMSecs);
            && key in w.0 && w.0[key] == info
            && forall c | c in w.1 :: RM.KeyOf(c) != key
  {
    var adv := RM.AdvanceWait(requests, 500);
    assert adv[key] == info;
    var w := RM.WaitTimeouts(adv, waitTimeoutMSecs);
    assert key !in RM.CompletedKeys(multiset(w.1));
  }

  /** A request that is gone stays gone and completes nothing. */
  lemma WaitAbsent(requests: RM.Waiting, key: (int, int), waitTimeoutMSecs: int)
    requires key !in requests
    ensures var w := RM.WaitTimeouts(RM.AdvanceWait(requests, 500), waitTimeoutMSecs);
            && key !in w.0
            && forall c | c in w.1 :: RM.KeyOf(c) != key
  {
  }

  /** Periods in a row: an unacked request either is still unacked with no
      completion, or is gone and has been told that its command went
      unanswered. */
  lemma {:induction false} TicksUnacked(v: Vehicle, policy: CL.Policy, waitTimeoutMSecs: int,
                                        key: (int, int), info: RM.Info, n: nat)
    requires CL.Stored(v.commands, policy)
    requires Unacked(v, key, info)
    ensures var r := Ticks(v, policy, waitTimeoutMSecs, n);
            || (Unacked(r.0, key, info) && NoneFor(r.1.completions, key))
            || (Gone(r.0, key) && NotAcked(info.caller, key) in r.1.completions)
    decreases n, 1
  {
    if n > 0 {
      TicksUnackedAfter(v, policy, waitTimeoutMSecs, key, info, n - 1);
    }
  }

  /** The step of `TicksUnacked`: one period, then `m` more. */
  lemma {:induction false} TicksUnackedAfter(v: Vehicle, policy: CL.Policy, waitTimeoutMSecs: int,
                                             key: (int, int), info: RM.Info, m: nat)
    requires CL.Stored(v.commands, policy)
    requires Unacked(v, key, info)
    ensures var r := Ticks(v, policy, waitTimeoutMSecs, m + 1);
            || (Unacked(r.0, key, info) && NoneFor(r.1.completions, key))
            || (Gone(r.0, key) && NotAcked(info.caller, key) in r.1.completions)
    decreases m + 1, 0
  {
    var t := Tick(v, policy, waitTimeoutMSecs);
    TickUnacked(v, policy, waitTimeoutMSecs, key, info);
    if Unacked(t.0, key, info) {
      TicksUnacked(t.0, policy, waitTimeoutMSecs, key, info, m);
      var rest := Ticks(t.0, policy, waitTimeoutMSecs, m);
      if Unacked(rest.0, key, info) && NoneFor(rest.1.completions, key) {
        NoneForJoin(t.1.completions, rest.1.completions, key);
      }
    } else {
      TicksGone(t.0, policy, waitTimeoutMSecs, key, m);
    }
  }

  /** Periods in a row: a request that is gone stays gone and gets no
      completion. */
  lemma {:induction false} TicksGone(v: Vehicle, policy: CL.Policy, waitTimeoutMSecs: int, key: (int, int), n: nat)
    requires CL.Stored(v.commands, policy)
    requires Gone(v, key)
    ensures var r := Ticks(v, policy, waitTimeoutMSecs, n);
            Gone(r.0, key) && NoneFor(r.1.completions, key)
    decreases n, 1
  {
    if n > 0 {
      TicksGoneAfter(v, policy, waitTimeoutMSecs, key, n - 1);
    }
  }

  /** The step of `TicksGone`: one period, then `m` more. */
  lemma {:induction false} TicksGoneAfter(v: Vehicle, policy: CL.Policy, waitTimeoutMSecs: int,
                                          key: (int, int), m: nat)
    requires CL.Stored(v.commands, policy)
    requires Gone(v, key)
    ensures var r := Ticks(v, policy, waitTimeoutMSecs, m + 1);
            Gone(r.0, key) && NoneFor(r.1.completions, key)
    decreases m + 1, 0
  {
    var t := Tick(v, policy, waitTimeoutMSecs);
    TickGone(v, policy, waitTimeoutMSecs, key);
    TicksGone(t.0, policy, waitTimeoutMSecs, key, m);
    NoneForJoin(t.1.completions, Ticks(t.0, policy, waitTimeoutMSecs, m).1.completions, key);
  }

  /** A command list with no entry reporting to the request does not carry
      it. */
  lemma CarriesNone(commands: seq<CL.Entry>, key: (int, int))
    requires forall x | x in commands :: x.handler != CL.RequestMessageInfo(key.0, key.1)
    ensures Carries(commands, key, 0)
    ensures forall t | t in CL.Tags(commands) :: t.2 != CL.RequestMessageInfo(key.0, key.1)
  {
    forall t | t in CL.Tags(commands)
      ensures t.2 != CL.RequestMessageInfo(key.0, key.1)
    {
      assert t in CL.TagSeq(commands, true);
      var i :| 0 <= i < |commands| && CL.TagSeq(commands, true)[i] == t;
      assert commands[i] in commands;
    }
  }

  /** A command list with no entry for the request, plus the request's own
      REQUEST_MESSAGE entry, carries the request once. */
  lemma CarriesAppended(commands: seq<CL.Entry>, e: CL.Entry, key: (int, int))
    requires forall x | x in commands :: x.handler != CL.RequestMessageInfo(key.0, key.1)
    requires e.handler == CL.RequestMessageInfo(key.0, key.1)
    requires e.targetCompId == key.0 && e.command == CmdRequestMessage
    ensures Carries(commands + [e], key, 1)
  {
    CL.MarksAppend(commands, [e], true);
    CL.MarksOne(e, true);
    CarriesNone(commands, key);
  }

  /** A REQUEST_MESSAGE that is never acked: once the command list has had
      time to use up every try of every entry, the request is gone and its
      caller has been told, exactly once, that the command was not acked
      (`RequestMessageFailureCommandNotAcked` with MAV_RESULT_FAILED). This
      assumes that no REQUEST_MESSAGE of an earlier request for the same
      message is still in the command list. */
  lemma UnackedRequestFails(v: Vehicle, policy: CL.Policy, highLatency: bool, caller: nat,
                            compId: int, msgId: int, params: seq<real>, waitTimeoutMSecs: int, n: nat)
    requires Valid(v, policy)
    requires (compId, msgId) !in v.requests
    requires !CL.IsPending(v.commands, compId, CmdRequestMessage) || policy.CanBeDuplicated(CmdRequestMessage)
    requires forall e | e in v.commands :: e.handler != CL.RequestMessageInfo(compId, msgId)
    requires 500 * n >= CL.TotalBudget(RequestMessage(v, policy, highLatency, caller, compId, msgId, params).0.commands)
    ensures var v1 := RequestMessage(v, policy, highLatency, caller, compId, msgId, params).0;
            CL.Stored(v1.commands, policy) &&
            var r := Ticks(v1, policy, waitTimeoutMSecs, n);
            var failed := RM.Completion(caller, compId, msgId, ResultFailed, RM.FailureCommandNotAcked, None);
            && r.0.commands == []
            && (compId, msgId) !in r.0.requests
            && failed in r.1.completions && r.1.completions[failed] == 1
            && forall c | c in r.1.completions && RM.KeyOf(c) == (compId, msgId) :: c == failed
  {
    var key := (compId, msgId);
    RequestRegistered(v, policy, highLatency, caller, compId, msgId, params);
    RequestMessageKeepsValid(v, policy, highLatency, caller, compId, msgId, params);
    var v1 := RequestMessage(v, policy, highLatency, caller, compId, msgId, params).0;
    var e := CL.NewEntry(policy, highLatency, RequestCommand(compId, msgId, params)).(tryCount := 1);
    CarriesAppended(v.commands, e, key);
    assert Unacked(v1, key, RM.Fresh(caller));
    CL.TicksDrain(v1.commands, policy, n);
    TicksUnacked(v1, policy, waitTimeoutMSecs, key, RM.Fresh(caller), n);
    var r := Ticks(v1, policy, waitTimeoutMSecs, n);
    assert CL.Tags([]) == multiset{};
    assert !Unacked(r.0, key, RM.Fresh(caller));
  }

  /** A command list with no entry carrying `tag` has no such tag. */
  lemma NoTag(commands: seq<CL.Entry>, tag: (int, int, CL.Handler))
    requires forall x | x in commands :: CL.TagOf(x, true) != tag
    ensures CL.Tags(commands)[tag] == 0
  {
  }

  /** When every result among the notices reports an unanswered command, an
      ordinary caller hears such a result once for every result with its
      (key, handler) pair. */
  lemma {:induction false} PassedFailures(notices: seq<CL.Notice>, failed: CL.Notice)
    requires failed.Result? && !failed.handler.RequestMessageInfo?
    requires failed.ackResult == ResultFailed && failed.failure == CL.FailureNoResponseToCommand
    requires forall x | x in notices :: x.Result? ==> x.failure == CL.FailureNoResponseToCommand && x.ackResult == ResultFailed
    ensures multiset(Passed(notices))[failed]
            == CL.ResultTags(notices)[CL.Tag(failed.compId, failed.command, failed.handler, true)]
    decreases |notices|
  {
    if |notices| > 0 {
      var n := notices[0];
      var head: multiset<(int, int, CL.Handler)> :=
        if n.Result? then multiset{CL.Tag(n.compId, n.command, n.handler, true)} else multiset{};
      assert CL.ResultTags(notices) == head + CL.ResultTags(notices[1..]);
      assert forall x | x in notices[1..] :: x in notices;
      PassedFailures(notices[1..], failed);
      assert n in notices;
    }
  }

  /** An ordinary command that is never acked: once the command list has had
      time to use up every try of every entry, the list is empty, every
      result ordinary callers heard in the meantime reports an unanswered
      command, and the command's own handler has heard exactly one
      (MAV_RESULT_FAILED with `FailureNoResponseToCommand`). This assumes
      that no earlier entry for the same command reports to the same
      handler. */
  lemma UnackedCommandFails(v: Vehicle, policy: CL.Policy, highLatency: bool, req: CL.Request,
                            waitTimeoutMSecs: int, n: nat)
    requires Valid(v, policy)
    requires !req.handler.RequestMessageInfo?
    requires !CL.IsPending(v.commands, req.compId, req.command) || policy.CanBeDuplicated(req.command)
    requires forall e | e in v.commands :: CL.TagOf(e, true) != CL.Tag(req.compId, req.command, req.handler, true)
    requires 500 * n >= CL.TotalBudget(SendCommand(v, policy, highLatency, req).0.commands)
    ensures var v1 := SendCommand(v, policy, highLatency, req).0;
            CL.Stored(v1.commands, policy) &&
            var r := Ticks(v1, policy, waitTimeoutMSecs, n);
            var failed := CL.Result(req.handler, req.compId, req.command, ResultFailed, CL.FailureNoResponseToCommand);
            && r.0.commands == []
            && multiset(r.1.notices)[failed] == 1
            && forall x | x in r.1.notices && x.Result? ::
                 x.ackResult == ResultFailed && x.failure == CL.FailureNoResponseToCommand
  {
    var tag := CL.Tag(req.compId, req.command, req.handler, true);
    var failed := CL.Result(req.handler, req.compId, req.command, ResultFailed, CL.FailureNoResponseToCommand);
    SendCommandKeepsValid(v, policy, highLatency, req);
    var v1 := SendCommand(v, policy, highLatency, req).0;
    var e := CL.NewEntry(policy, highLatency, req).(tryCount := 1);
    assert v1.commands == v.commands + [e];
    CL.MarksAppend(v.commands, [e], true);
    CL.MarksOne(e, true);
    NoTag(v.commands, tag);
    assert CL.Tags(v1.commands)[tag] == 1;
    CL.UnackedCommandsAllResolve(v1.commands, policy, n);
    var ns := CL.TickN(v1.commands, policy, n).1;
    PassedFailures(ns, failed);
    PassedWithin(ns);
  }

  /** The requested message arrives before the command's ack, and the ack
      never comes: the message alone completes nothing and is kept with the
      request; once the command list has used up every try, the request is
      gone and its caller has been told, exactly once, that the command was
      not acked, without the message. This assumes, as `UnackedRequestFails`
      does, that no REQUEST_MESSAGE of an earlier request for the same
      message is still in the command list. */
  lemma MessageFirstNeverAcked(v: Vehicle, policy: CL.Policy, highLatency: bool, caller: nat,
                               msg: Message, params: seq<real>, waitTimeoutMSecs: int, n: nat)
    requires Valid(v, policy)
    requires (msg.compId, msg.msgId) !in v.requests
    requires !CL.IsPending(v.commands, msg.compId, CmdRequestMessage) || policy.CanBeDuplicated(CmdRequestMessage)
    requires forall e | e in v.commands :: e.handler != CL.RequestMessageInfo(msg.compId, msg.msgId)
    requires 500 * n >= CL.TotalBudget(RequestMessage(v, policy, highLatency, caller, msg.compId, msg.msgId, params).0.commands)
    ensures var v1 := RequestMessage(v, policy, highLatency, caller, msg.compId, msg.msgId, params).0;
            var got := ReceiveMessage(v1, msg);
            && got.1 == Outcome([], multiset{})
            && (msg.compId, msg.msgId) in got.0.requests
            && got.0.requests[(msg.compId, msg.msgId)] == RM.Fresh(caller).(messageReceived := true, message := Some(msg))
            && CL.Stored(got.0.commands, policy)
            && var r := Ticks(got.0, policy, waitTimeoutMSecs, n);
               var failed := NotAcked(caller, (msg.compId, msg.msgId));
               && r.0.commands == []
               && (msg.compId, msg.msgId) !in r.0.requests
               && failed in r.1.completions && r.1.completions[failed] == 1
               && forall c | c in r.1.completions && RM.KeyOf(c) == (msg.compId, msg.msgId) :: c == failed
  {
    var key := (msg.compId, msg.msgId);
    RequestRegistered(v, policy, highLatency, caller, msg.compId, msg.msgId, params);
    RequestMessageKeepsValid(v, policy, highLatency, caller, msg.compId, msg.msgId, params);
    var v1 := RequestMessage(v, policy, highLatency, caller, msg.compId, msg.msgId, params).0;
    var e := CL.NewEntry(policy, highLatency, RequestCommand(msg.compId, msg.msgId, params)).(tryCount := 1);
    CarriesAppended(v.commands, e, key);
    var got := ReceiveMessage(v1, msg);
    var info := RM.Fresh(caller).(messageReceived := true, message := Some(msg));
    assert got.0.requests[key] == info;
    assert Unacked(got.0, key, info);
    CL.TicksDrain(got.0.commands, policy, n);
    TicksUnacked(got.0, policy, waitTimeoutMSecs, key, info, n);
    var r := Ticks(got.0, policy, waitTimeoutMSecs, n);
    assert CL.Tags([]) == multiset{};
    assert !Unacked(r.0, key, info);
  }

  /** Routing a single notice. */
  lemma RouteOne(requests: RM.Waiting, n: CL.Notice)
    ensures !ForRequest(n) ==> Route(requests, [n]) == (requests, [n], multiset{})
    ensures ForRequest(n) && n.Progress? ==> Route(requests, [n]) == (requests, [], multiset{})
    ensures ForRequest(n) && n.Result? ==>
              var c := RM.CommandResult(requests, n.handler.compId, n.handler.msgId, n.ackResult, n.failure);
              Route(requests, [n]) == (c.0, [], RM.Delivered(c.1))
  {
    assert [n][1..] == [];
    assert [n][0] == n;
    if ForRequest(n) && n.Result? {
      var c := RM.CommandResult(requests, n.handler.compId, n.handler.msgId, n.ackResult, n.failure);
      var done := RM.Delivered(c.1);
      assert Route(c.0, []) == (c.0, [], multiset{});
      assert done + multiset{} == done;
      assert Route(requests, [n]) == (c.0, [], done + multiset{});
    }
  }

  /** The same request is already outstanding: refused at once with
      `RequestMessageFailureDuplicateCommand`, nothing changes. */
  lemma RequestWhileOutstanding(v: Vehicle, policy: CL.Policy, highLatency: bool, caller: nat,
                                compId: int, msgId: int, params: seq<real>)
    requires (compId, msgId) in v.requests
    ensures RequestMessage(v, policy, highLatency, caller, compId, msgId, params)
            == (v, Outcome([], multiset{RM.Completion(caller, compId, msgId, ResultFailed, RM.FailureDuplicateCommand, None)}))
  {
  }

  /** Another message's REQUEST_MESSAGE to the same component still waits
      for its ack: the command list refuses the duplicate command, the
      request is dropped again and its caller gets
      `RequestMessageFailureDuplicateCommand`; nothing changes. */
  lemma RequestWhileComponentBusy(v: Vehicle, policy: CL.Policy, highLatency: bool, caller: nat,
                                  compId: int, msgId: int, params: seq<real>)
    requires (compId, msgId) !in v.requests
    requires CL.IsPending(v.commands, compId, CmdRequestMessage)
    requires !policy.CanBeDuplicated(CmdRequestMessage)
    ensures RequestMessage(v, policy, highLatency, caller, compId, msgId, params)
            == (v, Outcome([], multiset{RM.Completion(caller, compId, msgId, ResultFailed, RM.FailureDuplicateCommand, None)}))
  {
    var req := RequestCommand(compId, msgId, params);
    var s := CL.Submit(v.commands, policy, highLatency, req);
    var n := CL.Result(req.handler, compId, CmdRequestMessage, ResultFailed, CL.FailureDuplicateCommand);
    assert s == (v.commands, [n]);
    RouteRefusal(v.requests, caller, compId, msgId);
  }

  /** The refusal of a fresh request's command, routed back to the
      correlator, drops the request again with `RequestMessageFailureDuplicateCommand`. */
  lemma RouteRefusal(requests: RM.Waiting, caller: nat, compId: int, msgId: int)
    requires (compId, msgId) !in requests
    ensures var n := CL.Result(CL.RequestMessageInfo(compId, msgId), compId, CmdRequestMessage,
                               ResultFailed, CL.FailureDuplicateCommand);
            Route(RM.Register(requests, caller, compId, msgId).0, [n])
            == (requests, [], multiset{RM.Completion(caller, compId, msgId, ResultFailed, RM.FailureDuplicateCommand, None)})
  {
    var key := (compId, msgId);
    var reg := RM.Register(requests, caller, compId, msgId);
    var n := CL.Result(CL.RequestMessageInfo(compId, msgId), compId, CmdRequestMessage,
                       ResultFailed, CL.FailureDuplicateCommand);
    RouteOne(reg.0, n);
    assert reg.0 - {key} == requests;
  }

  /** A request for a new (component, message id) pair with no
      REQUEST_MESSAGE waiting for that component is registered, and its
      command is appended and sent once. */
  lemma RequestRegistered(v: Vehicle, policy: CL.Policy, highLatency: bool, caller: nat,
                          compId: int, msgId: int, params: seq<real>)
    requires (compId, msgId) !in v.requests
    requires !CL.IsPending(v.commands, compId, CmdRequestMessage) || policy.CanBeDuplicated(CmdRequestMessage)
    ensures var r := RequestMessage(v, policy, highLatency, caller, compId, msgId, params);
        && r.0.requests == v.requests[(compId, msgId) := RM.Fresh(caller)]
        && r.0.commands == v.commands + [CL.NewEntry(policy, highLatency, RequestCommand(compId, msgId, params)).(tryCount := 1)]
        && r.1 == Outcome([CL.Sent(compId, CmdRequestMessage, 1)], multiset{})
    ensures var r := RequestMessage(v, policy, highLatency, caller, compId, msgId, params);
        policy.ShouldRetry(CmdRequestMessage) ==> r.0.commands[|v.commands|].maxTries == CL.MaxRetryCount
  {
    var reg := RM.Register(v.requests, caller, compId, msgId);
    RouteOne(reg.0, CL.Sent(compId, CmdRequestMessage, 1));
  }

  /** The REQUEST_MESSAGE entry a fresh request appended is the one its ack
      finds, and removing it restores the earlier command list. */
  lemma AckFindsRequestEntry(list: seq<CL.Entry>, e: CL.Entry)
    requires !CL.IsPending(list, e.targetCompId, e.command)
    ensures CL.FindEntryIndex(list + [e], e.targetCompId, e.command) == |list|
    ensures (list + [e])[..|list|] + (list + [e])[|list| + 1..] == list
  {
    assert (list + [e])[..|list|] == list;
  }

  /** An ack for a REQUEST_MESSAGE entry that was appended to a list with no
      other entry for its key retires that entry and hands the result to the
      correlator. */
  lemma AckRetiresRequestEntry(commands: seq<CL.Entry>, e: CL.Entry, requests: RM.Waiting,
                               policy: CL.Policy, ackResult: int)
    requires !CL.IsPending(commands, e.targetCompId, e.command)
    requires e.handler.RequestMessageInfo?
    requires ackResult != ResultInProgress
    ensures var c := RM.CommandResult(requests, e.handler.compId, e.handler.msgId, ackResult, CL.CommandResultOnly);
            ReceiveAck(Vehicle(commands + [e], requests), policy, e.targetCompId, e.command, ackResult)
            == (Vehicle(commands, c.0), Outcome([], RM.Delivered(c.1)))
  {
    AckFindsRequestEntry(commands, e);
    var n := CL.Result(e.handler, e.targetCompId, e.command, ackResult, CL.CommandResultOnly);
    assert CL.HandleAck(commands + [e], e.targetCompId, e.command, ackResult) == (commands, [n]);
    RouteOne(requests, n);
  }

  /** From state `v1`, the ACCEPTED ack for REQUEST_MESSAGE and the message
      `msg` lead to state `after` and to the single completion `c`,
      whichever of the two arrives first; neither produces a notice. */
  predicate SettlesInEitherOrder(v1: Vehicle, policy: CL.Policy, msg: Message, after: Vehicle, c: RM.Completion) {
    var ack1 := ReceiveAck(v1, policy, msg.compId, CmdRequestMessage, ResultAccepted);
    var msg2 := ReceiveMessage(ack1.0, msg);
    var msg1 := ReceiveMessage(v1, msg);
    var ack2 := ReceiveAck(msg1.0, policy, msg.compId, CmdRequestMessage, ResultAccepted);
    && msg2.0 == ack2.0 == after
    && ack1.1.notices == msg2.1.notices == msg1.1.notices == ack2.1.notices == []
    && ack1.1.completions + msg2.1.completions == msg1.1.completions + ack2.1.completions == multiset{c}
  }

  /** A request whose REQUEST_MESSAGE is acked with ACCEPTED and whose
      message arrives completes once, with the message, whichever of the two
      comes first, and leaves the layer exactly as it was before the
      request. */
  lemma RequestAckAndMessageInEitherOrder(
    v: Vehicle, policy: CL.Policy, highLatency: bool, caller: nat,
    compId: int, msgId: int, params: seq<real>, msg: Message)
    requires (compId, msgId) !in v.requests
    requires !CL.IsPending(v.commands, compId, CmdRequestMessage)
    requires msg.compId == compId && msg.msgId == msgId
    ensures SettlesInEitherOrder(RequestMessage(v, policy, highLatency, caller, compId, msgId, params).0,
                                 policy, msg, v,
                                 RM.Completion(caller, compId, msgId, ResultAccepted, RM.NoFailure, Some(msg)))
  {
    var key := (compId, msgId);
    RequestRegistered(v, policy, highLatency, caller, compId, msgId, params);
    var e := CL.NewEntry(policy, highLatency, RequestCommand(compId, msgId, params)).(tryCount := 1);
    var requests := v.requests[key := RM.Fresh(caller)];
    assert RequestMessage(v, policy, highLatency, caller, compId, msgId, params).0
           == Vehicle(v.commands + [e], requests);
    assert requests - {key} == v.requests;
    AckAndMessageCommute(v.commands, e, requests, policy, msg);
  }

  /** The order-independence step on its own: an outstanding request with
      neither flag set, whose REQUEST_MESSAGE entry is the only one for its
      key. */
  lemma AckAndMessageCommute(commands: seq<CL.Entry>, e: CL.Entry, requests: RM.Waiting,
                             policy: CL.Policy, msg: Message)
    requires !CL.IsPending(commands, e.targetCompId, e.command)
    requires e.handler == CL.RequestMessageInfo(msg.compId, msg.msgId)
    requires e.targetCompId == msg.compId && e.command == CmdRequestMessage
    requires (msg.compId, msg.msgId) in requests
    requires !requests[(msg.compId, msg.msgId)].commandAckReceived && !requests[(msg.compId, msg.msgId)].messageReceived
    ensures SettlesInEitherOrder(Vehicle(commands + [e], requests), policy, msg,
                                 Vehicle(commands, requests - {(msg.compId, msg.msgId)}),
                                 RM.Completion(requests[(msg.compId, msg.msgId)].caller, msg.compId, msg.msgId,
                                               ResultAccepted, RM.NoFailure, Some(msg)))
  {
    AckRetiresRequestEntry(commands, e, requests, policy, ResultAccepted);
    var m := RM.MessageReceived(requests, msg);
    AckRetiresRequestEntry(commands, e, m.0, policy, ResultAccepted);
    RM.AckMessageOrderIrrelevant(requests, msg.compId, msg.msgId, msg);
  }

  /** A request whose REQUEST_MESSAGE is answered with anything but ACCEPTED
      or IN_PROGRESS fails at once with `RequestMessageFailureCommandError`
      and the ack's result, without waiting for the message. */
  lemma RequestAckFailure(v: Vehicle, policy: CL.Policy, highLatency: bool, caller: nat,
                          compId: int, msgId: int, params: seq<real>, ackResult: int)
    requires (compId, msgId) !in v.requests
    requires !CL.IsPending(v.commands, compId, CmdRequestMessage)
    requires ackResult != ResultAccepted && ackResult != ResultInProgress
    ensures var v1 := RequestMessage(v, policy, highLatency, caller, compId, msgId, params).0;
            ReceiveAck(v1, policy, compId, CmdRequestMessage, ackResult)
            == (v, Outcome([], multiset{RM.Completion(caller, compId, msgId, ackResult, RM.FailureCommandError, None)}))
  {
    var key := (compId, msgId);
    RequestRegistered(v, policy, highLatency, caller, compId, msgId, params);
    var e := CL.NewEntry(policy, highLatency, RequestCommand(compId, msgId, params)).(tryCount := 1);
    var requests := v.requests[key := RM.Fresh(caller)];
    assert RequestMessage(v, policy, highLatency, caller, compId, msgId, params).0
           == Vehicle(v.commands + [e], requests);
    assert requests - {key} == v.requests;
    AckRetiresRequestEntry(v.commands, e, requests, policy, ackResult);
  }

  // ----- a request whose message never arrives -----

  /** The request's command was acked with ACCEPTED and its message has been
      awaited for `elapsed` milliseconds; no command entry reports to it. */
  predicate Awaiting(v: Vehicle, key: (int, int), caller: nat, elapsed: int) {
    && key in v.requests
    && v.requests[key] == RM.Info(caller, true, false, Some(elapsed), None)
    && Carries(v.commands, key, 0)
  }

  function NotReceived(caller: nat, key: (int, int)): RM.Completion {
    RM.Completion(caller, key.0, key.1, ResultAccepted, RM.FailureMessageNotReceived, None)
  }

  /** One period for an awaited message: the wait grows by 500 ms, and once
      it exceeds `waitTimeoutMSecs` the request completes with
      `RequestMessageFailureMessageNotReceived`. */
  lemma TickAwaiting(v: Vehicle, policy: CL.Policy, waitTimeoutMSecs: int, key: (int, int), caller: nat, elapsed: int)
    requires CL.Stored(v.commands, policy)
    requires Awaiting(v, key, caller, elapsed)
    ensures var t := Tick(v, policy, waitTimeoutMSecs);
            elapsed + 500 <= waitTimeoutMSecs ==>
              Awaiting(t.0, key, caller, elapsed + 500) && NoneFor(t.1.completions, key)
    ensures var t := Tick(v, policy, waitTimeoutMSecs);
            elapsed + 500 > waitTimeoutMSecs ==>
              Gone(t.0, key) && NotReceived(caller, key) in t.1.completions
  {
    var ct := CL.Tick(v.commands, policy);
    var rt := Route(v.requests, ct.1);
    var adv := RM.AdvanceWait(rt.0, 500);
    var w := RM.WaitTimeouts(adv, waitTimeoutMSecs);
    var t := Tick(v, policy, waitTimeoutMSecs);
    assert t.0 == Vehicle(ct.0, w.0) && t.1.completions == rt.2 + multiset(w.1);
    TickCarries(v.commands, policy, key, 0);
    RouteAt(v.requests, ct.1, key);
    assert key !in RM.CompletedKeys(rt.2);
    WaitStep(rt.0, key, caller, elapsed, waitTimeoutMSecs);
  }

  /** The message waits of one period, for a request whose message has been
      awaited for `elapsed` milliseconds. */
  lemma WaitStep(requests: RM.Waiting, key: (int, int), caller: nat, elapsed: int, waitTimeoutMSecs: int)
    requires key in requests && requests[key] == RM.Info(caller, true, false, Some(elapsed), None)
    ensures var w := RM.WaitTimeouts(RM.AdvanceWait(requests, 500), waitTimeoutMSecs);
            elapsed + 500 <= waitTimeoutMSecs ==>
              && key in w.0 && w.0[key] == RM.Info(caller, true, false, Some(elapsed + 500), None)
              && forall c | c in w.1 :: RM.KeyOf(c) != key
    ensures var w := RM.WaitTimeouts(RM.AdvanceWait(requests, 500), waitTimeoutMSecs);
            elapsed + 500 > waitTimeoutMSecs ==> key !in w.0 && NotReceived(caller, key) in w.1
  {
    var adv := RM.AdvanceWait(requests, 500);
    var a := adv[key];
    assert a.waitElapsedMSecs.Some? && a.waitElapsedMSecs.value == elapsed + 500;
    assert a == RM.Info(caller, true, false, Some(elapsed + 500), None);
  }

  /** The message wait `periods` response-check periods after it stood at
      `elapsed`. */
  function WaitedAfter(elapsed: int, periods: nat): int {
    elapsed + 500 * periods
  }

  /** Periods in a row for an awaited message: it is still awaited, with no
      completion, while the wait has not exceeded `waitTimeoutMSecs`, and
      after that the request is gone and has completed with
      `RequestMessageFailureMessageNotReceived`. */
  lemma {:induction false} TicksAwaiting(v: Vehicle, policy: CL.Policy, waitTimeoutMSecs: int,
                                         key: (int, int), caller: nat, elapsed: int, n: nat)
    requires CL.Stored(v.commands, policy)
    requires Awaiting(v, key, caller, elapsed)
    ensures var r := Ticks(v, policy, waitTimeoutMSecs, n);
            WaitedAfter(elapsed, n) <= waitTimeoutMSecs ==>
              Awaiting(r.0, key, caller, WaitedAfter(elapsed, n)) && NoneFor(r.1.completions, key)
    ensures var r := Ticks(v, policy, waitTimeoutMSecs, n);
            n > 0 && WaitedAfter(elapsed, n) > waitTimeoutMSecs ==>
              Gone(r.0, key) && NotReceived(caller, key) in r.1.completions
    decreases n, 2
  {
    if n > 0 {
      TicksAwaitingAfter(v, policy, waitTimeoutMSecs, key, caller, elapsed, n - 1);
    }
  }

  /** The step of `TicksAwaiting`: one period, then `m` more. */
  lemma {:induction false} TicksAwaitingAfter(v: Vehicle, policy: CL.Policy, waitTimeoutMSecs: int,
                                              key: (int, int), caller: nat, elapsed: int, m: nat)
    requires CL.Stored(v.commands, policy)
    requires Awaiting(v, key, caller, elapsed)
    ensures var r := Ticks(v, policy, waitTimeoutMSecs, m + 1);
            WaitedAfter(elapsed, m + 1) <= waitTimeoutMSecs ==>
              Awaiting(r.0, key, caller, WaitedAfter(elapsed, m + 1)) && NoneFor(r.1.completions, key)
    ensures var r := Ticks(v, policy, waitTimeoutMSecs, m + 1);
            WaitedAfter(elapsed, m + 1) > waitTimeoutMSecs ==>
              Gone(r.0, key) && NotReceived(caller, key) in r.1.completions
    decreases m + 1, 1
  {
    if elapsed + 500 <= waitTimeoutMSecs {
      StillAwaited(v, policy, waitTimeoutMSecs, key, caller, elapsed, m);
    } else {
      ExpiresFirst(v, policy, waitTimeoutMSecs, key, caller, elapsed, m);
    }
  }

  /** The first period leaves the message awaited. */
  lemma {:induction false} StillAwaited(v: Vehicle, policy: CL.Policy, waitTimeoutMSecs: int,
                                        key: (int, int), caller: nat, elapsed: int, m: nat)
    requires CL.Stored(v.commands, policy)
    requires Awaiting(v, key, caller, elapsed)
    requires elapsed + 500 <= waitTimeoutMSecs
    ensures var r := Ticks(v, policy, waitTimeoutMSecs, m + 1);
            WaitedAfter(elapsed, m + 1) <= waitTimeoutMSecs ==>
              Awaiting(r.0, key, caller, WaitedAfter(elapsed, m + 1)) && NoneFor(r.1.completions, key)
    ensures var r := Ticks(v, policy, waitTimeoutMSecs, m + 1);
            WaitedAfter(elapsed, m + 1) > waitTimeoutMSecs ==>
              Gone(r.0, key) && NotReceived(caller, key) in r.1.completions
    decreases m + 1, 0
  {
    var t := Tick(v, policy, waitTimeoutMSecs);
    TicksUnfold(v, policy, waitTimeoutMSecs, m);
    TickAwaiting(v, policy, waitTimeoutMSecs, key, caller, elapsed);
    assert WaitedAfter(elapsed + 500, m) == WaitedAfter(elapsed, m + 1);
    TicksAwaiting(t.0, policy, waitTimeoutMSecs, key, caller, elapsed + 500, m);
    var rest := Ticks(t.0, policy, waitTimeoutMSecs, m);
    if WaitedAfter(elapsed, m + 1) <= waitTimeoutMSecs {
      NoneForJoin(t.1.completions, rest.1.completions, key);
    }
  }

  /** The first period already runs the wait out. */
  lemma ExpiresFirst(v: Vehicle, policy: CL.Policy, waitTimeoutMSecs: int,
                     key: (int, int), caller: nat, elapsed: int, m: nat)
    requires CL.Stored(v.commands, policy)
    requires Awaiting(v, key, caller, elapsed)
    requires elapsed + 500 > waitTimeoutMSecs
    ensures var r := Ticks(v, policy, waitTimeoutMSecs, m + 1);
            Gone(r.0, key) && NotReceived(caller, key) in r.1.completions
  {
    var t := Tick(v, policy, waitTimeoutMSecs);
    TickAwaiting(v, policy, waitTimeoutMSecs, key, caller, elapsed);
    TicksGone(t.0, policy, waitTimeoutMSecs, key, m);
  }

  /** A REQUEST_MESSAGE acked with ACCEPTED whose message never arrives: the
      ack completes nothing; for as long as the periods since the ack add up
      to no more than `waitTimeoutMSecs` the request keeps waiting, and after
      that it is gone and its caller has been told, exactly once, that the
      message was not received (`RequestMessageFailureMessageNotReceived`
      with MAV_RESULT_ACCEPTED). This assumes that no REQUEST_MESSAGE of an
      earlier request for the same message is still in the command list. */
  lemma MessageNeverArrives(v: Vehicle, policy: CL.Policy, highLatency: bool, caller: nat,
                            compId: int, msgId: int, params: seq<real>, waitTimeoutMSecs: int, n: nat)
    requires Valid(v, policy)
    requires (compId, msgId) !in v.requests
    requires !CL.IsPending(v.commands, compId, CmdRequestMessage)
    requires forall e | e in v.commands :: e.handler != CL.RequestMessageInfo(compId, msgId)
    ensures var v1 := RequestMessage(v, policy, highLatency, caller, compId, msgId, params).0;
            var ack := ReceiveAck(v1, policy, compId, CmdRequestMessage, ResultAccepted);
            ack.1 == Outcome([], multiset{})
    ensures var v1 := RequestMessage(v, policy, highLatency, caller, compId, msgId, params).0;
            var v2 := ReceiveAck(v1, policy, compId, CmdRequestMessage, ResultAccepted).0;
            CL.Stored(v2.commands, policy) &&
            var r := Ticks(v2, policy, waitTimeoutMSecs, n);
            && (500 * n <= waitTimeoutMSecs ==>
                  (compId, msgId) in r.0.requests && forall c | c in r.1.completions :: RM.KeyOf(c) != (compId, msgId))
            && (n > 0 && 500 * n > waitTimeoutMSecs ==>
                  var missed := RM.Completion(caller, compId, msgId, ResultAccepted, RM.FailureMessageNotReceived, None);
                  && (compId, msgId) !in r.0.requests
                  && missed in r.1.completions && r.1.completions[missed] == 1
                  && forall c | c in r.1.completions && RM.KeyOf(c) == (compId, msgId) :: c == missed)
  {
    AcceptedAwaits(v, policy, highLatency, caller, compId, msgId, params);
    var v2 := ReceiveAck(RequestMessage(v, policy, highLatency, caller, compId, msgId, params).0,
                         policy, compId, CmdRequestMessage, ResultAccepted).0;
    TicksAwaiting(v2, policy, waitTimeoutMSecs, (compId, msgId), caller, 0, n);
  }

  /** After the ACCEPTED ack the request awaits its message, from zero. */
  lemma AcceptedAwaits(v: Vehicle, policy: CL.Policy, highLatency: bool, caller: nat,
                       compId: int, msgId: int, params: seq<real>)
    requires Valid(v, policy)
    requires (compId, msgId) !in v.requests
    requires !CL.IsPending(v.commands, compId, CmdRequestMessage)
    requires forall e | e in v.commands :: e.handler != CL.RequestMessageInfo(compId, msgId)
    ensures var v1 := RequestMessage(v, policy, highLatency, caller, compId, msgId, params).0;
            var ack := ReceiveAck(v1, policy, compId, CmdRequestMessage, ResultAccepted);
            && ack.1 == Outcome([], multiset{})
            && CL.Stored(ack.0.commands, policy)
            && Awaiting(ack.0, (compId, msgId), caller, 0)
  {
    var key := (compId, msgId);
    RequestRegistered(v, policy, highLatency, caller, compId, msgId, params);
    RequestMessageKeepsValid(v, policy, highLatency, caller, compId, msgId, params);
    var e := CL.NewEntry(policy, highLatency, RequestCommand(compId, msgId, params)).(tryCount := 1);
    var requests := v.requests[key := RM.Fresh(caller)];
    var v1 := RequestMessage(v, policy, highLatency, caller, compId, msgId, params).0;
    assert v1 == Vehicle(v.commands + [e], requests);
    AckRetiresRequestEntry(v.commands, e, requests, policy, ResultAccepted);
    ReceiveAckKeepsValid(v1, policy, compId, CmdRequestMessage, ResultAccepted);
    CarriesNone(v.commands, key);
  }
}

=== FILE: version.dfy ===
/** `Vehicle::versionCompare(major, minor, patch)`: compare the vehicle's
    firmware version with a given one. */
module FirmwareVersion {

  /** `Vehicle::versionNotSetValue`: every version field holds it until the
      vehicle reports its firmware version. */
  const VersionNotSet: int := -1

  datatype Version = Version(major: int, minor: int, patch: int)

  const Unset: Version := Version(VersionNotSet, VersionNotSet, VersionNotSet)

  /** `a` is an earlier version than `b`: lexicographic order on
      (major, minor, patch). */
  predicate Earlier(a: Version, b: Version) {
    || a.major < b.major
    || (a.major == b.major && a.minor < b.minor)
    || (a.major == b.major && a.minor == b.minor && a.patch < b.patch)
  }

  /** 1 if the current version is newer than `compare`, 0 if they are the
      same, -1 if it is older. */
  function VersionCompare(current: Version, compare: Version): (r: int)
    ensures r == 1 || r == 0 || r == -1
    ensures r == 0 <==> current == compare
    ensures r == 1 <==> Earlier(compare, current)
    ensures r == -1 <==> Earlier(current, compare)
  {
    if current.major == compare.major && current.minor == compare.minor && current.patch == compare.patch then 0
    else if || current.major > compare.major
            || (current.major == compare.major && current.minor > compare.minor)
            || (current.major == compare.major && current.minor == compare.minor && current.patch > compare.patch)
    then 1
    else -1
  }

  /** Swapping the arguments negates the answer. */
  lemma VersionCompareAntisymmetric(a: Version, b: Version)
    ensures VersionCompare(a, b) == -VersionCompare(b, a)
  {
    if Earlier(a, b) {
      assert !Earlier(b, a);
    }
  }

  /** The comparison is a total order: it is transitive. */
  lemma VersionCompareTransitive(a: Version, b: Version, c: Version)
    requires VersionCompare(a, b) >= 0 && VersionCompare(b, c) >= 0
    ensures VersionCompare(a, c) >= 0
    ensures VersionCompare(a, c) == 0 <==> VersionCompare(a, b) == 0 && VersionCompare(b, c) == 0
  {
    if a != b && b != c {
      assert Earlier(b, a) && Earlier(c, b);
    }
  }

  /** Until the vehicle reports its firmware, it compares as older than any
      real version. */
  lemma UnsetIsOlderThanAnyRelease(v: Version)
    requires v.major >= 0
    ensures VersionCompare(Unset, v) == -1
  {
    assert Earlier(Unset, v);
  }
}
